=== FILE: README.md ===
# ShogiStack connector — a Dafny model of the engine adapter

The ShogiStack connector is a small Node.js process. It runs on the user's
machine, launches a USI shogi engine, feeds it positions received from the
ShogiStack server, and forwards the engine's evaluation lines (`info ... score
...`) back to the server. This project models the two pieces of decision logic
in it:

- **`UsiHandler`** (`usiHandler.js`) is the engine adapter class. Its state is
  whether a process is owned, whether the engine has answered the handshake,
  the partial-line buffer, and the two fields of the 500 ms update throttle.
  The model covers `start`, `stop`, `sendCommand`, `go`, `handleOutput` and
  `parseInfo`. `handleOutput` splits output into lines and dispatches on
  `usiok`, `readyok` and evaluation lines.
- **the connector script** (`index.js`) is modelled as pure functions:
  - the server URL default;
  - the `request_analysis` and `stop_analysis` handlers;
  - the `startEngine` command sequence;
  - the per-chunk stdout filter;
  - the stderr keyword filter;
  - the engine-path normalisation of the first-run wizard.

Every operation is a pure function on an immutable state record. It returns
the new state, the lines written to the engine's standard input (each with its
`\n`), and the evaluation lines forwarded upstream. The environment is passed
in as parameters:

- the file-system check (`fs.existsSync`) is a `fileExists: string -> bool`
  oracle;
- `path.resolve` is a `resolve` function;
- the clock (`Date.now()`) is a `now: int` argument.

Modules, in dependency order:

| file | module | what it holds |
|---|---|---|
| `wrappers.dfy` | `Wrappers` | `Option` |
| `text.dfy` | `Text` | JavaScript's `trim`, `startsWith`/`endsWith`/`includes`, `split('\n')`, with their laws |
| `usi.dfy` | `Usi` | command texts, the wire format, line classification |
| `line_assembler.dfy` | `LineAssembler` | the buffer/split/pop line assembler of `handleOutput` and the chunk-boundary theorem |
| `throttle.dfy` | `Throttle` | `parseInfo`'s 500 ms throttle over a stream of clock readings |
| `usi_handler.dfy` | `UsiHandler` | the adapter class |
| `connector.dfy` | `Connector` | the connector script's decision logic |

The central result is `LineAssembler.FeedAllIsFeedOfConcat`: the lines that
`handleOutput` releases, and the buffer it leaves, depend only on the text
received, not on where the chunk boundaries fall. `UsiHandler.HandleAllIsHandleOfConcat`
lifts this to the whole of `handleOutput` for chunks stamped with one clock
reading.

Details of the code that the model keeps exactly as written:

- Readiness is set on `usiok`, and `readyok` changes nothing.
- `stop` clears the process and readiness, but keeps the buffer and the
  throttle fields.
- `start` does not stop a process it already owns.
- In `index.js`, `startEngine` kills the old process first. If the new path
  then does not exist, the handle still names the killed process, so a later
  `request_analysis` writes to it (`Connector.StaleHandleAfterFailedRestart`).
- The `info`/`score` test is a prefix test plus a substring test, so
  `info string ... score` qualifies too.

## Model

| member | source | states |
|---|---|---|
| Text.Trim | usiHandler.js:71 | `line.trim()` (also index.js:179): the leading and then the trailing whitespace run is cut. It is a definition without a contract; `Text.TrimCutsWhitespaceOnly` characterises it and `Text.TrimUnpadded` covers texts with nothing to cut. |
| Text.TrimCutsWhitespaceOnly | usiHandler.js:71 | `trim` removes only whitespace, and only from the two ends: the result is a contiguous slice whose first and last characters are not whitespace. |
| Text.TrimUnpadded | usiHandler.js:71-72 | A text that neither starts nor ends with whitespace is its own trim. |
| Text.StartsWith | usiHandler.js:86 | `s.startsWith(p)` (also index.js:180): `p` is no longer than `s` and is its prefix. It is a definition without a contract; `Usi.AcknowledgementsFailInfoTest` and `Connector.TailFragmentNotInfo` give instances where it fails. |
| Text.EndsWith | index.js:71 | `input.endsWith(".exe")`: `p` is no longer than `s` and is its suffix. It is a definition without a contract; `Connector.AcceptEnginePath` states acceptance through it. |
| Text.Contains | usiHandler.js:86 | `s.includes(sub)` (also index.js:180 and 189), as a left-to-right scan. It is a definition without a contract; `Text.ContainsIffOccurs` characterises it and `Text.ContainsWithin` shows an occurrence survives surrounding text. |
| Text.ContainsIffOccurs | usiHandler.js:86 | `includes` holds exactly when the pattern occurs at some index. |
| Text.ContainsWithin | index.js:189 | A text containing the pattern still contains it with anything added around it. |
| Text.Split | usiHandler.js:67 | `split('\n')` always yields at least one piece. |
| Text.SplitPiecesNoNewline | usiHandler.js:67 | No piece of `split('\n')` contains a line feed. |
| Text.JoinSplit | usiHandler.js:67 | Joining the pieces of `split('\n')` with line feeds gives the original text back. |
| Text.SplitJoin | usiHandler.js:67 | `split('\n')` recovers any list of line-feed-free pieces from their join. |
| Text.SplitAtNewline | usiHandler.js:67 | Splitting `a + "\n" + b` gives the pieces of `a` followed by the pieces of `b`. |
| Text.JoinTerminated | usiHandler.js:67-68 | Lines joined with a final unterminated tail equal each line followed by its `\n`, then the tail. |
| Text.TerminatedAppend | usiHandler.js:66-68 | Writing two runs of terminated lines is writing their concatenation. |
| Usi.Decimal | usiHandler.js:78 | `${value}` of a non-negative integer is its canonical numeral: one or more decimal digits whose value is the number, with no leading zero (a single digit below 10). |
| Usi.Render | usiHandler.js:78 | `${value}` of an option value: a string is written as it is, a non-negative integer as its numeral, a negative integer as `-` followed by the numeral of its magnitude. |
| Usi.SetOption | usiHandler.js:78 | The `setoption name K value V` text of one option. It is a definition without a contract; `Usi.OptionCommands` and `Connector.HashCommand`, `Connector.ThreadsCommand` and `Connector.MultiPvCommand` characterise it. |
| Usi.OptionCommands | usiHandler.js:76-79 | One `setoption name K value V` command per configured option, in the options' order. |
| Usi.Wire | usiHandler.js:48-52 | `sendCommand` writes each command followed by exactly one `\n`, in order. |
| Usi.WireAppend | usiHandler.js:48-52 | Sending two command lists one after another writes the concatenation. |
| Usi.WireAround | index.js:167-174 | A command before and after a block each get their own line feed, around the block's own wire text. |
| Usi.WireAnalysis | usiHandler.js:58-62 | The analysis triple on the wire is `stop`, `position sfen <sfen>`, `go infinite`, each with `\n`. |
| Usi.InfoSegments | index.js:178-183 | Every line forwarded by the evaluation-line test starts with `info` and contains `score`; at most one output per input line. |
| Usi.InfoSegmentsAppend | index.js:178-183 | The evaluation-line test works line by line: filtering a concatenation is concatenating the filtered parts. |
| Usi.IsInfoLine | usiHandler.js:86 | The evaluation-line test: trimmed text that starts with `info` and contains `score`, case-sensitive. It is a definition without a contract; `Text.ContainsIffOccurs` characterises its `includes` half, and `Usi.AcknowledgementsFailInfoTest` and `Connector.WholeLineIsInfo` give instances either way. |
| Usi.Classify | usiHandler.js:71-88 | The dispatcher's branch for a trimmed line: the `usiok` branch iff the line is `usiok`, the `readyok` branch iff it is `readyok`, and the evaluation branch iff it passes the evaluation-line test, so the order of the tests never hides an evaluation line. |
| Usi.AcknowledgementsFailInfoTest | usiHandler.js:86 | Neither `usiok` nor `readyok` starts with `info`. |
| Usi.AcknowledgementsAreNotInfo | usiHandler.js:72-88 | `usiok` and `readyok` are never evaluation lines; the dispatcher classifies them as acknowledgements. |
| Usi.AcknowledgementsTrimmed | usiHandler.js:71-83 | `usiok` and `readyok` are their own trims, so the bare replies match the dispatcher's comparisons. |
| LineAssembler.Feed | usiHandler.js:66-68 | Released lines plus their `\n`s, followed by the new buffer, spell exactly old buffer + chunk; nothing released or kept holds a `\n`. |
| LineAssembler.FeedUnique | usiHandler.js:66-68 | Those two facts determine the result: any lines and tail satisfying them are what the assembler produces. |
| LineAssembler.FeedSplitChunk | usiHandler.js:66-70 | Delivering `c1 + c2` as one chunk releases the same lines and leaves the same buffer as delivering `c1` then `c2`. |
| LineAssembler.FeedAllIsFeedOfConcat | usiHandler.js:66-70 | Any sequence of chunks releases exactly the lines, and leaves exactly the buffer, of their concatenation fed at once. |
| LineAssembler.ChunkingIrrelevant | usiHandler.js:66-70 | Two chunkings of the same text release the same lines and leave the same buffer. |
| LineAssembler.EmptyRestAfterTerminator | usiHandler.js:67-68 | A chunk ending in `\n` leaves an empty buffer. |
| LineAssembler.FeedFromEmptyIsSplit | usiHandler.js:67-68 | From an empty buffer, the released lines followed by the kept tail are exactly `chunk.split('\n')`. |
| LineAssembler.NoLineWithoutTerminator | usiHandler.js:66-68 | A chunk without `\n` releases nothing and is appended to the buffer. |
| LineAssembler.TwoLinesInThreeChunks | usiHandler.js:66-70 | Two lines spread in any way over three chunks are released whole and in order. |
| LineAssembler.ThreeChunkExample | usiHandler.js:66-70 | `"info depth 1"`, `" score cp 10\ninfo dep"`, `"th 2 score cp 12\n"` release `info depth 1 score cp 10` and `info depth 2 score cp 12`. |
| Throttle.Observe | usiHandler.js:98-105 | A line is forwarded exactly when more than 500 ms have passed since the last send; then the send time moves to now and nothing is pending, otherwise the line becomes the pending one. |
| Throttle.Run | usiHandler.js:93-106 | Successive `parseInfo` calls, each at its own clock reading. It is a definition without a contract; `Throttle.RunSpacing`, `Throttle.AtMostOnePerWindow`, `Throttle.NoTrailingFlush` and `Throttle.RunAppend` characterise it. |
| Throttle.RunAppend | usiHandler.js:93-106 | Throttling two stretches of lines in turn is throttling their concatenation. |
| Throttle.SentAreObserved | usiHandler.js:99-102 | Every forwarded update is one of the observed lines, with its own clock reading. |
| Throttle.LastSendIsLastUpdate | usiHandler.js:101-103 | The recorded send time is the clock reading of the last forwarded update, or the initial one if none was forwarded. |
| Throttle.RunSpacing | usiHandler.js:101-104 | Forwarded updates are more than 500 ms after the previous send time and more than 500 ms apart from each other. |
| Throttle.AtMostOnePerWindow | usiHandler.js:97-105 | Lines whose clock readings all lie within one 500 ms window forward at most one update. |
| Throttle.QuietWithinWindow | usiHandler.js:101 | Within 500 ms of a send nothing more is forwarded, and the send time stays put. |
| Throttle.NoTrailingFlush | usiHandler.js:99-105 | A burst that stays within the window forwards nothing: the last line stays pending and nothing ever flushes it. |
| Throttle.PendingIsLatest | usiHandler.js:99-104 | After one more line, nothing is pending iff that line was forwarded; otherwise the pending line is that latest line and nothing new was sent. |
| UsiHandler.Payloads | usiHandler.js:102 | The callback receives the lines of the forwarded updates, one per update, in order. |
| UsiHandler.PayloadsAppend | usiHandler.js:102 | Payloads of two runs are concatenated. |
| UsiHandler.SendCommands | usiHandler.js:48-52 | Without a process nothing is written; with one, exactly one write per command, each the command followed by `\n`, in order. |
| UsiHandler.HandshakeWrites | usiHandler.js:76-81 | The answer to `usiok`: with a process, one `setoption` line per option in order and then `isready\n`; without one, nothing. |
| UsiHandler.Start | usiHandler.js:17-37 | `start` succeeds iff the resolved path exists; on failure nothing changes; on success a process is owned, `usi\n` is the only write, other fields are kept. |
| UsiHandler.Stop | usiHandler.js:39-46 | With a process: writes `quit\n`, drops the process and readiness, keeps the buffer and throttle; without one: changes and writes nothing. |
| UsiHandler.Go | usiHandler.js:55-63 | Before readiness nothing is written; once ready (with a process) the stop / position / go-infinite triple is written; state is unchanged. |
| UsiHandler.DispatchLine | usiHandler.js:70-89 | Only a line trimming to `usiok` writes or sets readiness; only an evaluation line reaches the throttle; the process flag and buffer are untouched. |
| UsiHandler.UsiOkAnswer | usiHandler.js:72-81 | On `usiok`: ready, one `setoption` per option in order, then `isready`; no update forwarded. |
| UsiHandler.InfoToThrottle | usiHandler.js:86-88 | An evaluation line is passed, trimmed and stamped with the clock, to the throttle, and nothing is written. |
| UsiHandler.OtherLinesIgnored | usiHandler.js:83-88 | `readyok` and any non-evaluation line change nothing. |
| UsiHandler.DispatchLines | usiHandler.js:70-89 | The `for (const line of lines)` loop, one line after another at one clock reading. It is a definition without a contract; `UsiHandler.DispatchThrottles`, `UsiHandler.ReadyIffUsiOk`, `UsiHandler.DispatchLinesAppend` and `UsiHandler.DispatchIgnoresBuffer` characterise it. |
| UsiHandler.DispatchThrottles | usiHandler.js:70-88 | Over a batch of lines, the throttle sees exactly the trimmed evaluation lines, in order, and the callback gets what the throttle forwards. |
| UsiHandler.DispatchLinesAppend | usiHandler.js:70-89 | Dispatching two runs of lines in turn is dispatching their concatenation (state, writes and updates). |
| UsiHandler.AppendHandler | usiHandler.js:70-89 | The state after dispatching `a + b` is the state after `a` then `b`. |
| UsiHandler.AppendWrites | usiHandler.js:70-89 | The writes for `a + b` are the writes for `a` followed by those for `b`. |
| UsiHandler.AppendUpdates | usiHandler.js:70-89 | The updates for `a + b` are the updates for `a` followed by those for `b`. |
| UsiHandler.DispatchIgnoresBuffer | usiHandler.js:68-89 | The line loop neither reads nor writes the buffer or process flag. |
| UsiHandler.ReadyIffUsiOk | usiHandler.js:72-73 | After a batch, the engine is ready iff it was before or some line of the batch trims to `usiok`. |
| UsiHandler.HandleOutput | usiHandler.js:65-90 | The new buffer holds no `\n` and completes the released lines to old buffer + chunk; every forwarded update is an evaluation line; with the whole chunk handled at one clock reading, at most one update is forwarded. |
| UsiHandler.UpdatesFromOneChunk | usiHandler.js:86-105 | Lines stamped with the same clock reading forward at most one update, and it is an evaluation line. |
| UsiHandler.StampedInfo | usiHandler.js:98 | All lines of one chunk carry the same clock reading. |
| UsiHandler.StampTimes | usiHandler.js:98 | Stamping keeps the lines and their order. |
| UsiHandler.HandleOutputSplitChunk | usiHandler.js:65-90 | Two chunks handled at the same clock reading act exactly as their concatenation handled once. |
| UsiHandler.HandleAllIsHandleOfConcat | usiHandler.js:65-90 | Any chunking of the engine's output at one clock reading yields the same state, writes and updates as the whole text at once. |
| UsiHandler.HandshakeOnUsiOk | usiHandler.js:72-81 | A `usiok` line makes the adapter ready and answers with the option commands and `isready`, nothing else. |
| UsiHandler.ReadyOkIsNoOp | usiHandler.js:83-85 | A `readyok` line changes nothing and writes nothing. |
| UsiHandler.AssembleOneLine | usiHandler.js:66-68 | A single terminated line from an empty buffer is released as itself. |
| UsiHandler.StartHandshakeGo | usiHandler.js:35-81 | A session writes `usi`, the options, `isready`, then the analysis triple; a `go` before `usiok` writes nothing. |
| UsiHandler.NoProcessNoWrites | usiHandler.js:48-52 | Without a process, `handleOutput`, `go` and `stop` write nothing. |
| UsiHandler.NoProcessLinesNoWrites | usiHandler.js:48-52 | Without a process, the line loop writes nothing. |
| UsiHandler.StopSilences | usiHandler.js:39-63 | After `stop`, `go` writes nothing and a second `stop` does nothing. |
| Connector.ServerUrl | index.js:105 | A non-empty configured URL is used verbatim; a missing or empty one falls back to the default; the URL is never empty. |
| Connector.RequestAnalysis | index.js:135-142 | The three analysis commands are written iff an engine handle exists and the sfen is present and non-empty; the handle is unchanged. |
| Connector.StopAnalysis | index.js:144-149 | `stop\n` is written iff an engine handle exists. |
| Connector.StartupCommands | index.js:167-174 | The start-up commands: `usi`, one `setoption` per option in order, `isready`, `usinewgame`. |
| Connector.StartupWireLayout | index.js:167-174 | The start-up block on the wire: `usi`, each option in order, `isready`, `usinewgame`. |
| Connector.StartEngine | index.js:152-174 | The previous process is killed iff there is one; a process is spawned iff the path exists; on failure nothing is written and the handle still names the killed process; on success a fresh live process gets the start-up block. |
| Connector.StartupEmbedsHandshake | index.js:167-174 | The script's start-up block is `usi`, then exactly the adapter's handshake answer, then `usinewgame`. |
| Connector.StaleHandleAfterFailedRestart | index.js:153-161 | After a failed restart the handle names a killed process, and `request_analysis` still writes three commands to it. |
| Connector.StdoutFilter | index.js:176-184 | Everything the stdout handler emits starts with `info` and contains `score`. |
| Connector.StdoutFilterAtNewline | index.js:177-183 | Within one chunk, text cut at a `\n` is filtered as its two sides. |
| Connector.StdoutFilterVsAssembler | index.js:176-184 | The per-chunk filter judges the assembler's complete lines and also the unterminated tail; with a trailing `\n` it judges only complete lines. |
| Connector.EmptyIsNotInfo | index.js:180 | The empty piece after a final `\n` is never emitted. |
| Connector.FilterOnePiece | index.js:177-182 | A chunk without `\n` is emitted (trimmed) iff it is an evaluation line; a trailing `\n` changes nothing. |
| Connector.FragmentsJudgedSeparately | index.js:176-184 | Two chunks are judged as two separate lines; nothing is carried over between them. |
| Connector.SplitEvaluationLineIsLost | index.js:176-184 | `info depth 1 score cp 10` delivered as `info depth 1` then ` score cp 10\n` emits nothing, although the whole line is emitted. |
| Connector.HeadFragmentDropped | index.js:176-184 | The head fragment `info depth 1` alone is not emitted. |
| Connector.TailFragmentDropped | index.js:176-184 | The tail fragment ` score cp 10` alone is not emitted. |
| Connector.WholeLineEmitted | index.js:176-184 | The whole line, in one chunk, is emitted. |
| Connector.HeadFragmentNotInfo | index.js:180 | `info depth 1` has no `score`. |
| Connector.TailFragmentNotInfo | index.js:180 | ` score cp 10` trimmed does not start with `info`. |
| Connector.WholeLineIsInfo | index.js:180 | `info depth 1 score cp 10` is its own trim and passes the test. |
| Connector.BufferedStdoutFilter | index.js:176-184 | Corrected handler: emits only evaluation lines and carries over an unterminated tail without `\n`. |
| Connector.BufferedFilterAllIsAssembled | index.js:176-184 | The corrected handler filters exactly the lines the line assembler releases. |
| Connector.BufferedFilterChunkingIrrelevant | index.js:176-184 | The corrected handler emits the same lines however the output is chunked. |
| Connector.BufferedAgreesOnWholeLines | index.js:176-184 | From an empty carry, a chunk ending on `\n` makes the corrected handler emit exactly what the script's handler emits, and nothing is carried over. |
| Connector.StdoutFilterAll | index.js:176-184 | The script's stdout handler over a stream of `data` events: each chunk filtered on its own, results in order. It is a definition without a contract; `Connector.BufferedAgreesOnTerminatedChunks` relates it to the corrected handler. |
| Connector.BufferedAgreesOnTerminatedChunks | index.js:176-184 | When every chunk of a stream ends on `\n`, the corrected handler started with nothing carried emits exactly what the script's handler emits over the whole stream (`Connector.StdoutFilterAll`, the per-chunk results in order). |
| Connector.BufferedJoinsFragments | index.js:176-184 | A line cut into two chunks is judged whole by the corrected handler. |
| Connector.SplitEvaluationLineKept | index.js:176-184 | The corrected handler emits `info depth 1 score cp 10` from the two fragments. |
| Connector.StderrReported | index.js:189 | A stderr chunk is reported iff it contains `Error`, `Failed` or `cannot open`. It is a definition without a contract; `Connector.StderrFilterProperties` and `Connector.NoCapitalError` characterise it. |
| Connector.StderrFilterProperties | index.js:186-191 | A reported stderr chunk stays reported with anything around it; `Error` is reported, lower-case `error` is not. |
| Connector.NoCapitalError | index.js:189 | The keyword match is case-sensitive: `error` does not contain `Error`. |
| Connector.StripQuotes | index.js:69 | Removing the quotes never lengthens the path. |
| Connector.StripQuotesShape | index.js:69 | The input is the result with a `"` put back in front exactly when the input starts with one, and a `"` put back at the end exactly when what follows that first quote ends with one (so `"a` gives `a`, a lone `"` gives the empty text); a quoted path loses exactly both quotes; an unquoted one is unchanged. |
| Connector.ForwardSlashes | index.js:72 | Same length; every `\` becomes `/`, every other character is kept. |
| Connector.ForwardSlashesStable | index.js:72 | Converting twice is converting once; a path without `\` is unchanged. |
| Connector.AcceptEnginePath | index.js:62-76 | An answer is accepted iff its trimmed, unquoted form exists and ends in `.exe`; the stored path is that form with every `\` replaced by `/` and every other character kept, so it has no `\` and still ends in `.exe`. |
| Connector.DefaultOptionCommands | index.js:11-15 | The default options become `setoption name USI_Hash value 1024`, `... Threads value 4`, `... MultiPV value 5`. |
| Connector.ThreeOptionCommands | usiHandler.js:77-79 | Three options give three commands, in order. |
| Connector.HashCommand | index.js:12 | The `USI_Hash` default's command text. |
| Connector.ThreadsCommand | index.js:13 | The `Threads` default's command text. |
| Connector.MultiPvCommand | index.js:14 | The `MultiPV` default's command text. |
| Connector.DefaultNumerals | index.js:12-14 | `1024`, `4` and `5` render as those digits. |

## Left out

- Process spawning, killing and exit codes. `child_process` calls, `kill()`
  and the `close` and exit-code diagnostics are I/O. The model records only
  whether a process is owned, and in `index.js` whether the handle was killed.
- Console logging and the stderr display. `console.log`/`console.error` are
  output only. The stderr handler is modelled as the predicate
  `Connector.StderrReported`.
- The socket connection. `io(...)`, `connect`, `connect_error` with its
  5-second reconnect timer, `disconnect` and `socket.emit` are network I/O.
  The `request_analysis`/`stop_analysis` handlers are modelled as functions of
  the handle and the event payload. Emitted updates are returned as sequences.
- The file system and path library. `fs.existsSync` is the `fileExists`
  oracle; `path.resolve`/`path.dirname` are the `resolve` parameter or unused.
- Reading and writing `config.json`. `JSON.parse`, `fs.writeFileSync`,
  `waitExit` and the error path of the main routine are I/O. `runSetupWizard`
  is modelled as one attempt of its path question (`AcceptEnginePath`). The
  surrounding `readline` loops are not modelled: the API-key loop only trims
  input and retries until it is non-empty.
- Clock readings per line. `parseInfo` reads `Date.now()` once per evaluation
  line. The model takes one `now` per `handleOutput` call. Per-observation
  clocks are kept in the `Throttle` module, where `Run` accepts any readings.
- Byte decoding. `data.toString()` decodes UTF-8 per chunk, so a multi-byte
  character split across chunks decodes differently. The model receives
  already-decoded text.
- Option values. `Object.entries` lists integer-like keys first, in ascending
  order, and the other keys in insertion order. The model takes the options as
  a sequence in the order they are listed. Values are integers or strings;
  other JSON values (floats, booleans, objects) are not rendered.
- `Connector.ServerUrl`: other falsy values of `config.serverUrl` (`null`, `0`,
  `false`) are not modelled; the setting is an optional string.
- `Connector.RequestAnalysis`: a `sfen` that is not a string is not modelled;
  the payload field is an optional string.
- `UsiHandler.HandleOutput`: its bound of at most one update per chunk holds
  because the model hands every line of a chunk the same clock reading. The
  source reads the clock for each evaluation line, so a line loop that spans
  more than 500 ms can forward two updates from one chunk.
- `Usi.Decimal`: option values are integers of unbounded size. In the source
  they are JSON numbers, which are doubles: integers above 2^53 lose precision
  and those of 10^21 or more render in exponent form.
- Character encoding. Strings are sequences of Unicode scalar values, where
  JavaScript strings are UTF-16 code units. A character outside the Basic
  Multilingual Plane is one character here and two code units there, and a
  lone surrogate cannot be represented. `trim`, `split('\n')`, `includes`,
  `startsWith` and `endsWith` with the fixed ASCII patterns used here behave
  the same under both views.
- `Connector.StripQuotes`: its own contract states only that the result is not
  longer. The exact shape is stated in `Connector.StripQuotesShape`.
- The callback `onInfoUpdate` is not called. Forwarded updates are returned as
  the `updates` sequence of each step.
- The constructor (`usiHandler.js:7-15`) is `UsiHandler.Fresh`. It is a
  constant, so it has no contract.

## Findings

| source | as written | input that shows it | evidently intended | confidence | as-written member | corrected member |
|---|---|---|---|---|---|---|
| index.js:176-184 | Each stdout chunk is split and filtered on its own; the unterminated tail of a chunk is judged as a line and then discarded | `info depth 1` followed by ` score cp 10\n` in two `data` events: neither fragment passes the test, so the evaluation line is never forwarded | Carry the unterminated tail over to the next chunk, as `UsiHandler.handleOutput` does, so that forwarding does not depend on chunk boundaries | medium (pipes deliver arbitrary chunks; not executed) | Connector.SplitEvaluationLineIsLost | Connector.BufferedFilterChunkingIrrelevant |

=== FILE: connector.dfy ===
/**
 The decision logic of the connector's main script: the server URL default,
 the engine start-up sequence, the handlers of the two inbound events, the
 per-chunk stdout filter, the stderr keyword filter and the engine-path
 normalisation of the first-run wizard. The script keeps one engine handle in
 a closure; here it is the `Link` record, and every handler returns the new
 record and the text written to the engine's standard input.
 */
module Connector {
  import opened Wrappers
  import opened Text
  import opened Usi
  import LineAssembler
  import UsiHandler

  /** The endpoint used when the settings name none */
  const DefaultServerUrl: string := "https://shogistack-server.onrender.com"

  /** The engine options the wizard writes into a new settings file */
  const DefaultOptions: seq<EngineOption> :=
    [EngineOption("USI_Hash", Num(1024)), EngineOption("Threads", Num(4)), EngineOption("MultiPV", Num(5))]

  /** `config.serverUrl || DEFAULT`: a missing or empty override falls back
      to the default; any other override is used verbatim. The URL used is
      never empty. */
  function ServerUrl(configured: Option<string>): (url: string)
    ensures url != ""
    ensures configured.Some? && configured.value != "" ==> url == configured.value
    ensures configured.None? || configured.value == "" ==> url == DefaultServerUrl
  {
    match configured
    case Some(u) => if u != "" then u else DefaultServerUrl
    case None => DefaultServerUrl
  }

  /** A spawned engine process: its spawn count and whether `kill()` has been
      called on it */
  datatype Engine = Engine(generation: nat, killed: bool)

  /** The closure variable `engineProcess` of `startConnection` */
  datatype Link = Link(engine: Option<Engine>)

  /** A handler's effect: the new link and the writes to the current engine */
  datatype Outcome = Outcome(link: Link, writes: seq<string>)

  /** The `request_analysis` handler. Without an engine handle, or with a
      missing or empty position, nothing is written; otherwise `stop`,
      `position sfen X` and `go infinite` are written, in that order. */
  function RequestAnalysis(l: Link, sfen: Option<string>): (r: Outcome)
    ensures r.link == l
    ensures r.writes != [] <==> l.engine.Some? && sfen.Some? && sfen.value != ""
    ensures r.writes != [] ==> r.writes == ["stop\n", "position sfen " + sfen.value + "\n", "go infinite\n"]
  {
    if l.engine.None? || sfen.None? || sfen.value == "" then Outcome(l, [])
    else
      WireAnalysis(sfen.value);
      Outcome(l, Wire(AnalysisCommands(sfen.value)))
  }

  /** The `stop_analysis` handler: `stop` exactly when an engine handle exists */
  function StopAnalysis(l: Link): (r: Outcome)
    ensures r.link == l
    ensures r.writes == (if l.engine.Some? then ["stop\n"] else [])
  {
    if l.engine.Some? then Outcome(l, ["stop\n"]) else Outcome(l, [])
  }

  /** What `startEngine` did: whether it killed the previous process, whether
      it spawned a new one, and what it wrote to the new one */
  datatype Launch = Launch(link: Link, killedPrevious: bool, spawned: bool, writes: seq<string>)

  /** The commands written right after spawning, without waiting for any
      reply: `usi`, one `setoption` per option, `isready`, `usinewgame` */
  function StartupCommands(opts: seq<EngineOption>): (cmds: seq<string>)
    ensures |cmds| == |opts| + 3
    ensures cmds[0] == "usi"
    ensures forall k :: 0 <= k < |opts| ==> cmds[k + 1] == SetOption(opts[k])
    ensures cmds[|opts| + 1] == "isready" && cmds[|opts| + 2] == "usinewgame"
  {
    var oc := OptionCommands(opts);
    var cmds := ["usi"] + oc + ["isready", "usinewgame"];
    assert forall k :: 0 <= k < |opts| ==> cmds[k + 1] == oc[k];
    cmds
  }

  /** The wire layout of the start-up block: `usi`, the options in order,
      `isready`, `usinewgame`, each on its own line */
  predicate StartupLayout(w: seq<string>, opts: seq<EngineOption>) {
    && |w| == |opts| + 3
    && w[0] == "usi\n"
    && (forall k :: 0 <= k < |opts| ==> w[k + 1] == SetOption(opts[k]) + "\n")
    && w[|opts| + 1] == "isready\n"
    && w[|opts| + 2] == "usinewgame\n"
  }

  lemma StartupWireLayout(opts: seq<EngineOption>)
    ensures StartupLayout(Wire(StartupCommands(opts)), opts)
  {
    var cmds := StartupCommands(opts);
    var w := Wire(cmds);
    assert w[0] == "usi" + "\n" == "usi\n";
    assert w[|opts| + 1] == "isready" + "\n" == "isready\n";
    assert w[|opts| + 2] == "usinewgame" + "\n" == "usinewgame\n";
    forall k | 0 <= k < |opts|
      ensures w[k + 1] == SetOption(opts[k]) + "\n"
    {
      assert cmds[k + 1] == SetOption(opts[k]);
    }
  }

  /** `startEngine()`. Any previous process is killed first. When the path
      does not exist nothing is spawned or written, but the handle still refers
      to the killed process; otherwise a fresh process replaces it and receives
      the start-up commands. */
  function StartEngine(l: Link, enginePath: string, opts: seq<EngineOption>, fileExists: string -> bool): (r: Launch)
    ensures r.killedPrevious <==> l.engine.Some?
    ensures r.spawned <==> fileExists(enginePath)
    ensures !r.spawned ==> r.writes == [] && r.link.engine.Some? == l.engine.Some?
    ensures !r.spawned && l.engine.Some? ==> r.link.engine == Some(l.engine.value.(killed := true))
    ensures r.spawned ==> r.link.engine.Some? && !r.link.engine.value.killed
    ensures r.spawned && l.engine.Some? ==> r.link.engine.value.generation > l.engine.value.generation
    ensures r.spawned ==> StartupLayout(r.writes, opts)
  {
    var prev := match l.engine
      case Some(e) => Some(e.(killed := true))
      case None => None;
    if !fileExists(enginePath) then Launch(Link(prev), l.engine.Some?, false, [])
    else
      var gen := match l.engine
        case Some(e) => e.generation + 1
        case None => 0;
      StartupWireLayout(opts);
      Launch(Link(Some(Engine(gen, false))), l.engine.Some?, true, Wire(StartupCommands(opts)))
  }

  /** The script sends, unprompted, the very block the handler class sends
      only on `usiok`: between `usi` and `usinewgame` come the option commands
      and `isready` exactly as `UsiHandler` answers the handshake. */
  lemma StartupEmbedsHandshake(l: Link, enginePath: string, opts: seq<EngineOption>, fileExists: string -> bool,
                               h: UsiHandler.Handler)
    requires fileExists(enginePath) && h.hasProcess
    ensures StartEngine(l, enginePath, opts, fileExists).writes
         == ["usi\n"] + UsiHandler.HandshakeWrites(h, opts) + ["usinewgame\n"]
  {
    var mid := OptionCommands(opts) + ["isready"];
    assert StartupCommands(opts) == ["usi"] + mid + ["usinewgame"];
    WireAround("usi", mid, "usinewgame");
  }

  /** After a restart that finds no engine, the handle still names the killed
      process, so a later `request_analysis` is not dropped: its three
      commands go to the killed process's input. */
  lemma StaleHandleAfterFailedRestart(l: Link, enginePath: string, opts: seq<EngineOption>,
                                      fileExists: string -> bool, sfen: string)
    requires l.engine.Some? && !fileExists(enginePath) && sfen != ""
    ensures var r := StartEngine(l, enginePath, opts, fileExists);
            && r.link.engine.Some? && r.link.engine.value.killed
            && |RequestAnalysis(r.link, Some(sfen)).writes| == 3
  {
  }

  /** The stdout `data` handler: every `\n`-piece of this one chunk, trimmed,
      that is an evaluation line is emitted, in order. Nothing is carried over
      to the next chunk. */
  function StdoutFilter(chunk: string): (r: seq<string>)
    ensures forall k :: 0 <= k < |r| ==> IsInfoLine(r[k])
  {
    InfoSegments(Split(chunk))
  }

  /** The filter works line by line: text cut at a line feed gives, in order,
      what the two sides give. */
  lemma StdoutFilterAtNewline(a: string, b: string)
    ensures StdoutFilter(a + "\n" + b) == StdoutFilter(a) + StdoutFilter(b)
  {
    SplitAtNewline(a, b);
    InfoSegmentsAppend(Split(a), Split(b));
  }

  /** Compared with the line assembler started on an empty buffer, the
      filter also looks at the unterminated tail of the chunk; on a chunk that
      ends with a line feed the two agree. */
  lemma StdoutFilterVsAssembler(chunk: string)
    ensures var f := LineAssembler.Feed("", chunk);
            StdoutFilter(chunk) == InfoSegments(f.lines) + InfoSegments([f.rest])
    ensures |chunk| > 0 && chunk[|chunk| - 1] == '\n' ==>
              StdoutFilter(chunk) == InfoSegments(LineAssembler.Feed("", chunk).lines)
  {
    var f := LineAssembler.Feed("", chunk);
    LineAssembler.FeedFromEmptyIsSplit(chunk);
    InfoSegmentsAppend(f.lines, [f.rest]);
    if |chunk| > 0 && chunk[|chunk| - 1] == '\n' {
      LineAssembler.EmptyRestAfterTerminator("", chunk);
      EmptyIsNotInfo();
      assert InfoSegments(f.lines) + [] == InfoSegments(f.lines);
    }
  }

  /** The empty piece after a final line feed is never an evaluation line */
  lemma EmptyIsNotInfo()
    ensures InfoSegments([""]) == []
  {
    TrimUnpadded("");
  }

  /** A piece without a line feed, with or without its terminator, is
      emitted trimmed when it is an evaluation line and dropped otherwise. */
  lemma FilterOnePiece(s: string)
    requires NoNewline(s)
    ensures StdoutFilter(s) == (if IsInfoLine(Trim(s)) then [Trim(s)] else [])
    ensures StdoutFilter(s + "\n") == StdoutFilter(s)
  {
    SplitNoNewline(s);
    SplitNoNewline("");
    SplitAtNewline(s, "");
    assert s + "\n" + "" == s + "\n";
    InfoSegmentsAppend([s], [""]);
    EmptyIsNotInfo();
    assert StdoutFilter(s + "\n") == InfoSegments([s]) + [];
  }

  /** Pieces without line feeds are filtered one by one: a line that arrives
      in two chunks is judged as two fragments. */
  lemma FragmentsJudgedSeparately(a: string, b: string)
    requires NoNewline(a) && NoNewline(b)
    ensures StdoutFilter(a) + StdoutFilter(b) == InfoSegments([a, b])
  {
    SplitNoNewline(a);
    SplitNoNewline(b);
    InfoSegmentsAppend([a], [b]);
    assert [a] + [b] == [a, b];
  }

  /** Worked example: an evaluation line cut after `info depth 1` is lost,
      although the same text in one chunk is emitted. The worked examples take
      their texts as parameters pinned by the precondition. */
  lemma SplitEvaluationLineIsLost(head: string, tail: string)
    requires head == "info depth 1" && tail == " score cp 10"
    ensures StdoutFilter(head) == []
    ensures StdoutFilter(tail + "\n") == []
    ensures StdoutFilter(head + tail + "\n") == [head + tail]
  {
    HeadFragmentDropped(head);
    TailFragmentDropped(tail);
    WholeLineEmitted(head, tail);
  }

  /** The evaluation lines the corrected handler emits for a chunk, and the
      unterminated text it carries over to the next one */
  datatype Filtered = Filtered(emitted: seq<string>, carry: string)

  /** The stdout handler as it was evidently meant to work: the unterminated
      tail of each chunk is carried over to the next chunk, as `UsiHandler`
      does, and only complete lines are filtered. */
  function BufferedStdoutFilter(carry: string, chunk: string): (r: Filtered)
    ensures NoNewline(r.carry)
    ensures forall k :: 0 <= k < |r.emitted| ==> IsInfoLine(r.emitted[k])
  {
    var f := LineAssembler.Feed(carry, chunk);
    Filtered(InfoSegments(f.lines), f.rest)
  }

  /** The corrected handler over a sequence of `data` events */
  function BufferedFilterAll(carry: string, chunks: seq<string>): Filtered
    decreases |chunks|
  {
    if |chunks| == 0 then Filtered([], carry)
    else
      var r := BufferedStdoutFilter(carry, chunks[0]);
      var g := BufferedFilterAll(r.carry, chunks[1..]);
      Filtered(r.emitted + g.emitted, g.carry)
  }

  /** Over many chunks the corrected handler filters exactly the lines the
      line assembler releases. */
  lemma {:induction false} BufferedFilterAllIsAssembled(carry: string, chunks: seq<string>)
    ensures var f := LineAssembler.FeedAll(carry, chunks);
            BufferedFilterAll(carry, chunks) == Filtered(InfoSegments(f.lines), f.rest)
    decreases |chunks|
  {
    if |chunks| > 0 {
      var f := LineAssembler.Feed(carry, chunks[0]);
      BufferedFilterAllIsAssembled(f.rest, chunks[1..]);
      InfoSegmentsAppend(f.lines, LineAssembler.FeedAll(f.rest, chunks[1..]).lines);
    }
  }

  /** The corrected handler emits the same evaluation lines however the
      engine's output is cut into chunks. */
  lemma {:induction false} BufferedFilterChunkingIrrelevant(carry: string, xs: seq<string>, ys: seq<string>)
    requires NoNewline(carry) && LineAssembler.Concat(xs) == LineAssembler.Concat(ys)
    ensures BufferedFilterAll(carry, xs) == BufferedFilterAll(carry, ys)
  {
    BufferedFilterAllIsAssembled(carry, xs);
    BufferedFilterAllIsAssembled(carry, ys);
    LineAssembler.ChunkingIrrelevant(carry, xs, ys);
  }

  /** From an empty carry, a chunk that ends on a line feed is handled by the
      corrected handler as by the script's, and nothing is carried over. */
  lemma BufferedAgreesOnWholeLines(chunk: string)
    requires |chunk| > 0 && chunk[|chunk| - 1] == '\n'
    ensures BufferedStdoutFilter("", chunk) == Filtered(StdoutFilter(chunk), "")
  {
    StdoutFilterVsAssembler(chunk);
    LineAssembler.EmptyRestAfterTerminator("", chunk);
  }

  /** The script's stdout handler over a sequence of `data` events: each chunk
      is filtered on its own and the results are emitted in order. */
  function StdoutFilterAll(chunks: seq<string>): seq<string>
    decreases |chunks|
  {
    if |chunks| == 0 then [] else StdoutFilter(chunks[0]) + StdoutFilterAll(chunks[1..])
  }

  /** Where every chunk ends on a line feed, the corrected handler, started
      with nothing carried, emits exactly what the script's handler emits. */
  lemma {:induction false} BufferedAgreesOnTerminatedChunks(chunks: seq<string>)
    requires forall i :: 0 <= i < |chunks| ==> |chunks[i]| > 0 && chunks[i][|chunks[i]| - 1] == '\n'
    ensures BufferedFilterAll("", chunks) == Filtered(StdoutFilterAll(chunks), "")
    decreases |chunks|
  {
    if |chunks| > 0 {
      BufferedAgreesOnWholeLines(chunks[0]);
      assert forall i :: 0 <= i < |chunks[1..]| ==> chunks[1..][i] == chunks[i + 1];
      BufferedAgreesOnTerminatedChunks(chunks[1..]);
    }
  }

  /** A line cut anywhere into two chunks is judged whole */
  lemma BufferedJoinsFragments(head: string, tail: string)
    requires NoNewline(head) && NoNewline(tail)
    ensures BufferedFilterAll("", [head, tail + "\n"]).emitted == InfoSegments([head + tail])
  {
    var xs, ys := [head, tail + "\n"], [head + tail + "\n"];
    assert LineAssembler.Concat(xs) == LineAssembler.Concat(ys) by {
      assert xs[1..] == [tail + "\n"] && [tail + "\n"][1..] == [] && ys[1..] == [];
      assert head + (tail + "\n" + "") == head + tail + "\n" + "";
    }
    BufferedFilterChunkingIrrelevant("", xs, ys);
    assert NoNewline(head + tail) by {
      assert forall k :: 0 <= k < |head + tail| ==>
        (head + tail)[k] == if k < |head| then head[k] else tail[k - |head|];
    }
    UsiHandler.AssembleOneLine(head + tail);
    assert ys[1..] == [];
    assert BufferedFilterAll("", ys).emitted == InfoSegments([head + tail]) + [];
  }

  /** The worked example once more, with the carry-over: the evaluation line
      cut after `info depth 1` is emitted whole. */
  lemma SplitEvaluationLineKept(head: string, tail: string)
    requires head == "info depth 1" && tail == " score cp 10"
    ensures BufferedFilterAll("", [head, tail + "\n"]).emitted == [head + tail]
  {
    BufferedJoinsFragments(head, tail);
    WholeLineIsInfo(head, tail);
  }

  lemma HeadFragmentDropped(a: string)
    requires a == "info depth 1"
    ensures StdoutFilter(a) == []
  {
    HeadFragmentNotInfo(a);
    FilterOnePiece(a);
  }

  lemma TailFragmentDropped(b: string)
    requires b == " score cp 10"
    ensures StdoutFilter(b + "\n") == []
  {
    TailFragmentNotInfo(b);
    FilterOnePiece(b);
  }

  lemma WholeLineEmitted(head: string, tail: string)
    requires head == "info depth 1" && tail == " score cp 10"
    ensures StdoutFilter(head + tail + "\n") == [head + tail]
  {
    WholeLineIsInfo(head, tail);
    FilterOnePiece(head + tail);
  }

  lemma HeadFragmentNotInfo(a: string)
    requires a == "info depth 1"
    ensures !IsInfoLine(Trim(a))
  {
    TrimUnpadded(a);
    AbsentFirstChar(a, "score");
  }

  lemma TailFragmentNotInfo(b: string)
    requires b == " score cp 10"
    ensures !IsInfoLine(Trim(b))
  {
    assert TrimStart(b) == b[1..];
    TrimUnpadded(b[1..]);
    assert Trim(b) == b[1..];
    assert b[1..][..4][0] == 's';
  }

  lemma WholeLineIsInfo(head: string, tail: string)
    requires head == "info depth 1" && tail == " score cp 10"
    ensures Trim(head + tail) == head + tail && IsInfoLine(head + tail)
  {
    var w := head + tail;
    assert w[0] == head[0] && w[|w| - 1] == tail[|tail| - 1];
    TrimUnpadded(w);
    assert w[13..18] == tail[1..6] == "score";
    assert OccursAt(w, "score", 13);
    ContainsIffOccurs(w, "score");
    assert w[..4] == head[..4] == "info";
  }

  /** The stderr `data` handler reports a chunk exactly when it contains
      `Error`, `Failed` or `cannot open`, with that capitalisation. */
  predicate StderrReported(msg: string) {
    Contains(msg, "Error") || Contains(msg, "Failed") || Contains(msg, "cannot open")
  }

  /** A reported message stays reported inside any longer chunk, and the
      match is case-sensitive: lower-case `error` alone is suppressed. */
  lemma StderrFilterProperties(a: string, m: string, b: string)
    ensures StderrReported(m) ==> StderrReported(a + m + b)
    ensures StderrReported("Error") && !StderrReported("error")
  {
    if Contains(m, "Error") { ContainsWithin(a, m, b, "Error"); }
    if Contains(m, "Failed") { ContainsWithin(a, m, b, "Failed"); }
    if Contains(m, "cannot open") { ContainsWithin(a, m, b, "cannot open"); }
    assert StartsWith("Error", "Error");
    NoCapitalError("error");
  }

  lemma NoCapitalError(s: string)
    requires s == "error"
    ensures !Contains(s, "Error")
  {
    AbsentFirstChar(s, "Error");
  }

  /** `input.replace(/^"|"$/g, '')`: one leading and one trailing double quote
      are removed, never more, and a lone quote is removed once. */
  function StripQuotes(s: string): (r: string)
    ensures |r| <= |s|
  {
    var t := if |s| > 0 && s[0] == '"' then s[1..] else s;
    if |t| > 0 && t[|t| - 1] == '"' then t[..|t| - 1] else t
  }

  /** `/^"|"$/g` cuts a quote at the very start, if any, and a quote at the
      very end of what remains, if any: the input is the result with exactly
      those quotes put back. A quoted path loses exactly its surrounding pair;
      a path quoted on neither side is unchanged. */
  lemma StripQuotesShape(s: string)
    ensures var r := StripQuotes(s);
            var lead := |s| > 0 && s[0] == '"';
            var trail := |s| > (if lead then 1 else 0) && s[|s| - 1] == '"';
            s == (if lead then "\"" else "") + r + (if trail then "\"" else "")
    ensures |s| >= 2 && s[0] == '"' && s[|s| - 1] == '"' ==> StripQuotes(s) == s[1..|s| - 1]
    ensures (|s| == 0 || (s[0] != '"' && s[|s| - 1] != '"')) ==> StripQuotes(s) == s
  {
    var t := if |s| > 0 && s[0] == '"' then s[1..] else s;
    var r := StripQuotes(s);
    var lead := if |s| > 0 && s[0] == '"' then "\"" else "";
    var trail := if |t| > 0 && t[|t| - 1] == '"' then "\"" else "";
    assert s == lead + t;
    assert |t| > 0 ==> t[|t| - 1] == s[|s| - 1];
    assert t == r + trail;
    assert s == lead + r + trail;
  }

  /** `s.replace(/\\/g, "/")`: every backslash becomes a forward slash */
  function ForwardSlashes(s: string): (r: string)
    ensures |r| == |s|
    ensures forall k :: 0 <= k < |s| ==> r[k] == (if s[k] == '\\' then '/' else s[k])
    decreases |s|
  {
    if |s| == 0 then "" else [if s[0] == '\\' then '/' else s[0]] + ForwardSlashes(s[1..])
  }

  /** One attempt of the wizard's engine-path question: the answer is trimmed
      and unquoted; it is accepted only if that path exists and ends in
      `.exe`, and is then stored with forward slashes only. */
  function AcceptEnginePath(input: string, fileExists: string -> bool): (r: Option<string>)
    ensures var c := StripQuotes(Trim(input));
            && (r.Some? <==> fileExists(c) && EndsWith(c, ".exe"))
            && (r.Some? ==> '\\' !in r.value && EndsWith(r.value, ".exe") && |r.value| == |c|)
            && (r.Some? ==> forall k :: 0 <= k < |c| ==> r.value[k] == (if c[k] == '\\' then '/' else c[k]))
  {
    var c := StripQuotes(Trim(input));
    if fileExists(c) && EndsWith(c, ".exe") then
      var p := ForwardSlashes(c);
      assert p[|p| - 4..] == c[|c| - 4..];
      Some(p)
    else None
  }

  /** Stored paths are stable: converting them again changes nothing, and a
      path without backslashes was stored exactly as typed (once trimmed and
      unquoted). */
  lemma ForwardSlashesStable(s: string)
    ensures ForwardSlashes(ForwardSlashes(s)) == ForwardSlashes(s)
    ensures '\\' !in s ==> ForwardSlashes(s) == s
  {
  }

  /** The defaults written by the wizard become these three commands */
  lemma DefaultOptionCommands()
    ensures OptionCommands(DefaultOptions)
         == ["setoption name USI_Hash value 1024", "setoption name Threads value 4", "setoption name MultiPV value 5"]
  {
    ThreeOptionCommands(DefaultOptions);
    HashCommand();
    ThreadsCommand();
    MultiPvCommand();
  }

  lemma ThreeOptionCommands(opts: seq<EngineOption>)
    requires |opts| == 3
    ensures OptionCommands(opts) == [SetOption(opts[0]), SetOption(opts[1]), SetOption(opts[2])]
  {
  }

  lemma HashCommand()
    ensures SetOption(DefaultOptions[0]) == "setoption name USI_Hash value 1024"
  {
    DefaultNumerals();
  }

  lemma ThreadsCommand()
    ensures SetOption(DefaultOptions[1]) == "setoption name Threads value 4"
  {
    DefaultNumerals();
  }

  lemma MultiPvCommand()
    ensures SetOption(DefaultOptions[2]) == "setoption name MultiPV value 5"
  {
    DefaultNumerals();
  }

  lemma DefaultNumerals()
    ensures Render(Num(1024)) == "1024" && Render(Num(4)) == "4" && Render(Num(5)) == "5"
  {
    assert Decimal(1) == "1";
    assert Decimal(10) == "10";
    assert Decimal(102) == "102";
    assert Decimal(1024) == "1024";
  }
}

=== FILE: line_assembler.dfy ===
/**
 The line assembler of the engine adapter: a carry-over buffer plus each
 incoming stdout chunk is split on line feeds; every piece but the last is a
 complete line, the last piece becomes the new buffer.
 */
module LineAssembler {
  import opened Text

  /** The complete lines released by one chunk and the carry-over left behind */
  datatype Fed = Fed(lines: seq<string>, rest: string)

  /** One `data` event: `buffer += chunk; lines = buffer.split('\n');
      buffer = lines.pop()`. The released lines, each with its line feed, then
      the new buffer spell out exactly the old buffer followed by the chunk,
      and nothing released or kept contains a line feed. */
  function Feed(buffer: string, chunk: string): (r: Fed)
    ensures AllNoNewline(r.lines) && NoNewline(r.rest)
    ensures Terminated(r.lines) + r.rest == buffer + chunk
  {
    var parts := Split(buffer + chunk);
    var n := |parts|;
    JoinSplit(buffer + chunk);
    SplitPiecesNoNewline(buffer + chunk);
    assert parts == parts[..n - 1] + [parts[n - 1]];
    JoinTerminated(parts[..n - 1], parts[n - 1]);
    Fed(parts[..n - 1], parts[n - 1])
  }

  /** The two facts of Feed's contract pin its result down: any lines and
      tail with those two properties are the ones Feed returns. */
  lemma FeedUnique(buffer: string, chunk: string, lines: seq<string>, rest: string)
    requires AllNoNewline(lines) && NoNewline(rest)
    requires Terminated(lines) + rest == buffer + chunk
    ensures Feed(buffer, chunk) == Fed(lines, rest)
  {
    JoinTerminated(lines, rest);
    var parts := lines + [rest];
    assert AllNoNewline(parts) by {
      assert forall k :: 0 <= k < |lines| ==> parts[k] == lines[k];
    }
    SplitJoin(parts);
    assert parts[..|parts| - 1] == lines;
  }

  /** Cutting a chunk in two anywhere changes nothing: the lines released by
      the two halves, in order, are those released by the whole chunk, and the
      carry-over is the same. */
  lemma FeedSplitChunk(buffer: string, c1: string, c2: string)
    ensures var f1 := Feed(buffer, c1);
            var f2 := Feed(f1.rest, c2);
            Feed(buffer, c1 + c2) == Fed(f1.lines + f2.lines, f2.rest)
  {
    var f1 := Feed(buffer, c1);
    var f2 := Feed(f1.rest, c2);
    TerminatedAppend(f1.lines, f2.lines);
    calc {
      Terminated(f1.lines + f2.lines) + f2.rest;
      Terminated(f1.lines) + (Terminated(f2.lines) + f2.rest);
      Terminated(f1.lines) + (f1.rest + c2);
      (Terminated(f1.lines) + f1.rest) + c2;
      buffer + (c1 + c2);
    }
    assert AllNoNewline(f1.lines + f2.lines) by {
      var all := f1.lines + f2.lines;
      assert forall k :: 0 <= k < |f1.lines| ==> all[k] == f1.lines[k];
      assert forall k :: |f1.lines| <= k < |all| ==> all[k] == f2.lines[k - |f1.lines|];
    }
    FeedUnique(buffer, c1 + c2, f1.lines + f2.lines, f2.rest);
  }

  /** A sequence of `data` events, one per chunk, starting from `buffer` */
  function FeedAll(buffer: string, chunks: seq<string>): Fed
    decreases |chunks|
  {
    if |chunks| == 0 then Fed([], buffer)
    else
      var f := Feed(buffer, chunks[0]);
      var g := FeedAll(f.rest, chunks[1..]);
      Fed(f.lines + g.lines, g.rest)
  }

  /** The text of the chunks, end to end */
  function Concat(chunks: seq<string>): string
    decreases |chunks|
  {
    if |chunks| == 0 then "" else chunks[0] + Concat(chunks[1..])
  }

  /** The chunk-boundary theorem: from a buffer holding no line feed (the
      buffer always satisfies this), any sequence of chunks releases exactly the
      lines, and leaves exactly the buffer, that their concatenation delivered
      as one chunk would. */
  lemma {:induction false} FeedAllIsFeedOfConcat(buffer: string, chunks: seq<string>)
    requires NoNewline(buffer)
    ensures FeedAll(buffer, chunks) == Feed(buffer, Concat(chunks))
    decreases |chunks|
  {
    if |chunks| == 0 {
      assert Terminated([]) + buffer == buffer + "";
      FeedUnique(buffer, "", [], buffer);
    } else {
      var f := Feed(buffer, chunks[0]);
      FeedAllIsFeedOfConcat(f.rest, chunks[1..]);
      FeedSplitChunk(buffer, chunks[0], Concat(chunks[1..]));
    }
  }

  /** Two chunkings of the same text release the same lines in the same order
      and leave the same buffer. */
  lemma {:induction false} ChunkingIrrelevant(buffer: string, xs: seq<string>, ys: seq<string>)
    requires NoNewline(buffer)
    requires Concat(xs) == Concat(ys)
    ensures FeedAll(buffer, xs) == FeedAll(buffer, ys)
  {
    FeedAllIsFeedOfConcat(buffer, xs);
    FeedAllIsFeedOfConcat(buffer, ys);
  }

  /** A chunk that ends with a line feed leaves the buffer empty */
  lemma EmptyRestAfterTerminator(buffer: string, chunk: string)
    requires |chunk| > 0 && chunk[|chunk| - 1] == '\n'
    ensures Feed(buffer, chunk).rest == ""
  {
    var f := Feed(buffer, chunk);
    var s := buffer + chunk;
    assert s[|s| - 1] == '\n';
    assert f.rest == s[|s| - |f.rest|..];
    assert s[|s| - 1] !in f.rest;
  }

  /** Started on an empty buffer, Feed is exactly JavaScript's split: the
      released lines followed by the carry-over are the pieces of the chunk. */
  lemma FeedFromEmptyIsSplit(chunk: string)
    ensures Feed("", chunk).lines + [Feed("", chunk).rest] == Split(chunk)
  {
    var parts := Split("" + chunk);
    assert "" + chunk == chunk;
    assert parts == parts[..|parts| - 1] + [parts[|parts| - 1]];
  }

  /** A line is released only once its line feed has arrived: text without a
      line feed releases nothing and is only appended to the buffer. */
  lemma NoLineWithoutTerminator(buffer: string, chunk: string)
    requires NoNewline(buffer) && NoNewline(chunk)
    ensures Feed(buffer, chunk) == Fed([], buffer + chunk)
  {
    assert NoNewline(buffer + chunk) by {
      assert forall k :: 0 <= k < |buffer + chunk| ==>
        (buffer + chunk)[k] == if k < |buffer| then buffer[k] else chunk[k - |buffer|];
    }
    assert Terminated([]) + (buffer + chunk) == buffer + chunk;
    FeedUnique(buffer, chunk, [], buffer + chunk);
  }

  /** Two lines spread over three chunks, in whatever way, come out whole */
  lemma {:induction false} TwoLinesInThreeChunks(c1: string, c2: string, c3: string, l1: string, l2: string)
    requires NoNewline(l1) && NoNewline(l2)
    requires c1 + c2 + c3 == l1 + "\n" + l2 + "\n"
    ensures FeedAll("", [c1, c2, c3]).lines == [l1, l2]
  {
    var chunks := [c1, c2, c3];
    var lines := [l1, l2];
    FeedAllIsFeedOfConcat("", chunks);
    assert Concat([c3]) == c3 by { assert [c3][1..] == []; }
    assert Concat([c2, c3]) == c2 + c3 by { assert [c2, c3][1..] == [c3]; }
    assert Concat(chunks) == c1 + c2 + c3 by { assert chunks[1..] == [c2, c3]; }
    assert Terminated([l2]) == l2 + "\n" by { assert [l2][1..] == []; }
    assert Terminated(lines) == l1 + "\n" + l2 + "\n" by { assert lines[1..] == [l2]; }
    assert Terminated(lines) + "" == "" + Concat(chunks);
    FeedUnique("", Concat(chunks), lines, "");
  }

  /** Worked example: a line split across three chunks, with a line feed in
      the middle chunk, is released whole. */
  lemma ThreeChunkExample()
    ensures FeedAll("", ["info depth 1", " score cp 10\ninfo dep", "th 2 score cp 12\n"]).lines
         == ["info depth 1 score cp 10", "info depth 2 score cp 12"]
  {
    ExampleText();
    ExampleLinesPlain();
    TwoLinesInThreeChunks("info depth 1", " score cp 10\ninfo dep", "th 2 score cp 12\n",
                          "info depth 1 score cp 10", "info depth 2 score cp 12");
  }

  lemma ExampleText()
    ensures "info depth 1" + " score cp 10\ninfo dep" + "th 2 score cp 12\n"
         == "info depth 1 score cp 10" + "\n" + "info depth 2 score cp 12" + "\n"
  {
  }

  lemma ExampleLinesPlain()
    ensures NoNewline("info depth 1 score cp 10") && NoNewline("info depth 2 score cp 12")
  {
  }
}

=== FILE: text.dfy ===
/**
 The JavaScript string operations the connector relies on: `trim`,
 `startsWith`, `endsWith`, `includes`, `split('\n')` and the inverse of that
 split. A string is a sequence of Unicode scalar values, where JavaScript has
 UTF-16 code units; none of these operations looks at a character outside the
 Basic Multilingual Plane except to copy it.
 */
module Text {

  /** The characters ECMAScript's `String.prototype.trim` removes: the
      WhiteSpace and LineTerminator productions (Unicode category Zs included). */
  predicate IsWhitespace(c: char) {
    || c == '\t' || c == '\n' || c == '\U{000B}' || c == '\U{000C}' || c == '\r'
    || c == ' ' || c == '\U{00A0}' || c == '\U{1680}'
    || ('\U{2000}' <= c <= '\U{200A}')
    || c == '\U{2028}' || c == '\U{2029}' || c == '\U{202F}' || c == '\U{205F}'
    || c == '\U{3000}' || c == '\U{FEFF}'
  }

  predicate AllWhitespace(s: string) {
    forall i :: 0 <= i < |s| ==> IsWhitespace(s[i])
  }

  /** `s` with its leading whitespace removed */
  function TrimStart(s: string): string
    decreases |s|
  {
    if |s| > 0 && IsWhitespace(s[0]) then TrimStart(s[1..]) else s
  }

  /** `s` with its trailing whitespace removed */
  function TrimEnd(s: string): string
    decreases |s|
  {
    if |s| > 0 && IsWhitespace(s[|s| - 1]) then TrimEnd(s[..|s| - 1]) else s
  }

  /** TrimStart cuts a whitespace prefix and stops at the first other character */
  lemma {:induction false} TrimStartCutsPrefix(s: string)
    ensures var r := TrimStart(s);
            && |r| <= |s| && r == s[|s| - |r|..]
            && AllWhitespace(s[..|s| - |r|])
            && (r == [] || !IsWhitespace(r[0]))
    decreases |s|
  {
    if |s| > 0 && IsWhitespace(s[0]) {
      TrimStartCutsPrefix(s[1..]);
      var r := TrimStart(s);
      assert s[..|s| - |r|] == [s[0]] + s[1..][..|s| - 1 - |r|];
    }
  }

  /** TrimEnd cuts a whitespace suffix and stops at the last other character */
  lemma {:induction false} TrimEndCutsSuffix(s: string)
    ensures var r := TrimEnd(s);
            && |r| <= |s| && r == s[..|r|]
            && AllWhitespace(s[|r|..])
            && (r == [] || !IsWhitespace(r[|r| - 1]))
    decreases |s|
  {
    if |s| > 0 && IsWhitespace(s[|s| - 1]) {
      TrimEndCutsSuffix(s[..|s| - 1]);
      var r := TrimEnd(s);
      assert s[|r|..] == s[..|s| - 1][|r|..] + [s[|s| - 1]];
    }
  }

  /** `r` is what is left of `s` once the whitespace run `s[..i]` in front and
      the whitespace run after `r` are cut off, and `r` neither starts nor ends
      with whitespace. */
  ghost predicate IsTrimOf(s: string, r: string, i: int) {
    && 0 <= i && i + |r| <= |s|
    && s[i..i + |r|] == r
    && AllWhitespace(s[..i])
    && AllWhitespace(s[i + |r|..])
    && (r == [] || (!IsWhitespace(r[0]) && !IsWhitespace(r[|r| - 1])))
  }

  /** JavaScript's `s.trim()` */
  function Trim(s: string): string {
    TrimEnd(TrimStart(s))
  }

  /** Trim removes exactly the leading and the trailing whitespace run: what
      is left is a slice of the input that neither starts nor ends with
      whitespace, and only whitespace was cut on either side. */
  lemma TrimCutsWhitespaceOnly(s: string)
    ensures exists i :: IsTrimOf(s, Trim(s), i)
  {
    var t := TrimStart(s);
    var r := TrimEnd(t);
    TrimStartCutsPrefix(s);
    TrimEndCutsSuffix(t);
    assert s[|s| - |t|..][..|r|] == s[|s| - |t|..|s| - |t| + |r|];
    assert s[|s| - |t| + |r|..] == t[|r|..];
    assert Trim(s) == r;
    assert IsTrimOf(s, r, |s| - |t|);
  }

  /** Text that neither starts nor ends with whitespace is left as it is */
  lemma TrimUnpadded(s: string)
    requires s == [] || (!IsWhitespace(s[0]) && !IsWhitespace(s[|s| - 1]))
    ensures Trim(s) == s
  {
  }

  /** JavaScript's `s.startsWith(p)` */
  predicate StartsWith(s: string, p: string) {
    |p| <= |s| && s[..|p|] == p
  }

  /** JavaScript's `s.endsWith(p)` */
  predicate EndsWith(s: string, p: string) {
    |p| <= |s| && s[|s| - |p|..] == p
  }

  /** `sub` occurs in `s` starting at index `i` */
  ghost predicate OccursAt(s: string, sub: string, i: int) {
    0 <= i && i + |sub| <= |s| && s[i..i + |sub|] == sub
  }

  /** JavaScript's `s.includes(sub)`, computed by scanning `s` from the left */
  function Contains(s: string, sub: string): bool
    decreases |s|
  {
    StartsWith(s, sub) || (|s| > 0 && Contains(s[1..], sub))
  }

  /** The scan finds `sub` exactly when `sub` occurs somewhere in `s` */
  lemma {:induction false} ContainsIffOccurs(s: string, sub: string)
    ensures Contains(s, sub) <==> exists i :: OccursAt(s, sub, i)
    decreases |s|
  {
    if StartsWith(s, sub) {
      assert OccursAt(s, sub, 0);
    } else if |s| > 0 {
      ContainsIffOccurs(s[1..], sub);
      if Contains(s[1..], sub) {
        var i :| OccursAt(s[1..], sub, i);
        assert s[i + 1..i + 1 + |sub|] == s[1..][i..i + |sub|];
        assert OccursAt(s, sub, i + 1);
      } else {
        forall i | OccursAt(s, sub, i)
          ensures false
        {
          assert i != 0;
          assert s[1..][i - 1..i - 1 + |sub|] == s[i..i + |sub|];
          assert OccursAt(s[1..], sub, i - 1);
        }
      }
    }
  }

  /** A text that lacks the first character of `sub` does not contain `sub` */
  lemma AbsentFirstChar(s: string, sub: string)
    requires |sub| > 0 && sub[0] !in s
    ensures !Contains(s, sub)
  {
    ContainsIffOccurs(s, sub);
    assert forall i :: 0 <= i && i + |sub| <= |s| ==> s[i..i + |sub|][0] == s[i] && s[i] in s;
  }

  /** An occurrence of `sub` in `m` is still an occurrence in any text that
      has `m` inside it. */
  lemma ContainsWithin(a: string, m: string, b: string, sub: string)
    requires Contains(m, sub)
    ensures Contains(a + m + b, sub)
  {
    ContainsIffOccurs(m, sub);
    var i :| OccursAt(m, sub, i);
    var s := a + m + b;
    assert s[|a| + i..|a| + i + |sub|] == m[i..i + |sub|];
    assert OccursAt(s, sub, |a| + i);
    ContainsIffOccurs(s, sub);
  }

  predicate NoNewline(s: string) {
    '\n' !in s
  }

  predicate AllNoNewline(parts: seq<string>) {
    forall i :: 0 <= i < |parts| ==> NoNewline(parts[i])
  }

  /** JavaScript's `s.split('\n')`: the pieces between line feeds, always at
      least one piece ("" splits into [""], "\n" into ["", ""]). */
  function Split(s: string): (parts: seq<string>)
    ensures |parts| >= 1
  {
    if |s| == 0 then [""]
    else
      var rest := Split(s[1..]);
      if s[0] == '\n' then [""] + rest
      else [[s[0]] + rest[0]] + rest[1..]
  }

  /** No piece of a split holds a line feed */
  lemma {:induction false} SplitPiecesNoNewline(s: string)
    ensures AllNoNewline(Split(s))
    decreases |s|
  {
    if |s| > 0 {
      SplitPiecesNoNewline(s[1..]);
      var rest := Split(s[1..]);
      if s[0] != '\n' {
        assert NoNewline([s[0]] + rest[0]) by {
          assert NoNewline(rest[0]);
          assert forall k :: 1 <= k < |[s[0]] + rest[0]| ==> ([s[0]] + rest[0])[k] == rest[0][k - 1];
        }
        assert forall k :: 1 <= k < |Split(s)| ==> Split(s)[k] == rest[k];
      } else {
        assert forall k :: 1 <= k < |Split(s)| ==> Split(s)[k] == rest[k - 1];
      }
    }
  }

  /** The pieces glued back together with a line feed between each two */
  function Join(parts: seq<string>): string
    requires |parts| >= 1
  {
    if |parts| == 1 then parts[0] else parts[0] + "\n" + Join(parts[1..])
  }

  /** Every line followed by its own line feed */
  function Terminated(lines: seq<string>): string {
    if |lines| == 0 then "" else lines[0] + "\n" + Terminated(lines[1..])
  }

  /** Joining the pieces of a split gives back the text */
  lemma {:induction false} JoinSplit(s: string)
    ensures Join(Split(s)) == s
    decreases |s|
  {
    if |s| > 0 {
      var rest := Split(s[1..]);
      JoinSplit(s[1..]);
      if s[0] == '\n' {
        assert Split(s)[1..] == rest;
        assert s == "\n" + s[1..];
      } else if |rest| == 1 {
        assert s == [s[0]] + s[1..];
      } else {
        var parts := Split(s);
        assert parts[1..] == rest[1..];
        assert Join(rest) == rest[0] + "\n" + Join(rest[1..]);
        assert s == [s[0]] + s[1..];
      }
    }
  }

  /** A text without a line feed splits into itself alone */
  lemma {:induction false} SplitNoNewline(s: string)
    requires NoNewline(s)
    ensures Split(s) == [s]
    decreases |s|
  {
    if |s| > 0 {
      assert s[1..] == s[1..] && NoNewline(s[1..]) by {
        assert forall k :: 0 <= k < |s| - 1 ==> s[1..][k] == s[k + 1];
      }
      SplitNoNewline(s[1..]);
      assert s == [s[0]] + s[1..];
    }
  }

  /** Split unfolded once, at the first character */
  lemma SplitCons(c: char, t: string)
    ensures Split([c] + t) == if c == '\n' then [""] + Split(t)
                              else [[c] + Split(t)[0]] + Split(t)[1..]
  {
    assert ([c] + t)[1..] == t;
  }

  /** Splitting at a line feed: the pieces of what comes before it, then the
      pieces of what comes after it. */
  lemma {:induction false} SplitAtNewline(a: string, b: string)
    ensures Split(a + "\n" + b) == Split(a) + Split(b)
    decreases |a|
  {
    if |a| == 0 {
      assert a + "\n" + b == ['\n'] + b;
      SplitCons('\n', b);
    } else {
      SplitAtNewline(a[1..], b);
      SplitAtNewlineStep(a, b);
    }
  }

  /** The inductive step of SplitAtNewline: one more character in front */
  lemma SplitAtNewlineStep(a: string, b: string)
    requires |a| > 0
    requires Split(a[1..] + "\n" + b) == Split(a[1..]) + Split(b)
    ensures Split(a + "\n" + b) == Split(a) + Split(b)
  {
    var t := a[1..] + "\n" + b;
    var st, ra, rb := Split(t), Split(a[1..]), Split(b);
    assert Split(a + "\n" + b) == Split([a[0]] + t) by {
      assert a + "\n" + b == [a[0]] + t;
    }
    assert Split(a) == Split([a[0]] + a[1..]) by {
      assert a == [a[0]] + a[1..];
    }
    SplitCons(a[0], t);
    SplitCons(a[0], a[1..]);
    PrependPieces(a[0], st, ra, rb);
  }

  /** Sequence bookkeeping behind SplitAtNewlineStep */
  lemma PrependPieces(c: char, st: seq<string>, ra: seq<string>, rb: seq<string>)
    requires |ra| >= 1 && st == ra + rb
    ensures (if c == '\n' then [""] + st else [[c] + st[0]] + st[1..])
         == (if c == '\n' then [""] + ra else [[c] + ra[0]] + ra[1..]) + rb
  {
    if c != '\n' {
      assert st[1..] == ra[1..] + rb;
    }
  }

  /** Split undoes Join: pieces without line feeds are recovered exactly */
  lemma {:induction false} SplitJoin(parts: seq<string>)
    requires |parts| >= 1 && AllNoNewline(parts)
    ensures Split(Join(parts)) == parts
    decreases |parts|
  {
    SplitNoNewline(parts[0]);
    if |parts| > 1 {
      SplitJoin(parts[1..]);
      SplitAtNewline(parts[0], Join(parts[1..]));
      assert parts == [parts[0]] + parts[1..];
    }
  }

  /** Terminated lines followed by an unterminated tail are the join of both */
  lemma {:induction false} JoinTerminated(lines: seq<string>, tail: string)
    ensures Join(lines + [tail]) == Terminated(lines) + tail
    decreases |lines|
  {
    if |lines| > 0 {
      assert (lines + [tail])[1..] == lines[1..] + [tail];
      JoinTerminated(lines[1..], tail);
    }
  }

  lemma {:induction false} TerminatedAppend(a: seq<string>, b: seq<string>)
    ensures Terminated(a + b) == Terminated(a) + Terminated(b)
    decreases |a|
  {
    if |a| == 0 {
      assert a + b == b;
    } else {
      assert (a + b)[1..] == a[1..] + b;
      TerminatedAppend(a[1..], b);
      assert (a + b)[0] == a[0];
      assert Terminated(a + b) == a[0] + "\n" + (Terminated(a[1..]) + Terminated(b));
    }
  }
}

=== FILE: throttle.dfy ===
/**
 The info throttler of the engine adapter (`parseInfo`): an evaluation line is
 always remembered as pending; it is forwarded at once only when more than
 500 ms have passed since the last forwarded line. Nothing is ever flushed
 later: a pending line waits for the next evaluation line to arrive outside
 the window. The clock reading is a parameter.
 */
module Throttle {
  import opened Wrappers

  /** The minimum gap, in milliseconds, that must be exceeded between updates */
  const Window: int := 500

  /** `lastSendTime` and `pendingInfo` of the handler */
  datatype State = State(lastSendTime: int, pendingInfo: Option<string>)

  /** The state of a fresh handler: nothing sent yet (time 0), nothing pending */
  const Initial := State(0, None)

  /** An evaluation line together with the clock reading when it was handled */
  datatype Obs = Obs(time: int, line: string)

  /** The state after handling some lines, and the updates forwarded, each
      with the clock reading at which it went out */
  datatype Observed = Observed(state: State, sent: seq<Obs>)

  /** `parseInfo(line)` at clock reading `o.time` */
  function Observe(s: State, o: Obs): (r: Observed)
    ensures |r.sent| <= 1
    ensures r.sent != [] <==> o.time - s.lastSendTime > Window
    ensures r.sent != [] ==> r.sent == [o] && r.state == State(o.time, None)
    ensures r.sent == [] ==> r.state == State(s.lastSendTime, Some(o.line))
  {
    var pending := Some(o.line);
    if o.time - s.lastSendTime > Window then
      Observed(State(o.time, None), [Obs(o.time, pending.value)])
    else
      Observed(State(s.lastSendTime, pending), [])
  }

  /** `parseInfo` applied to each line in turn */
  function Run(s: State, obs: seq<Obs>): Observed
    decreases |obs|
  {
    if |obs| == 0 then Observed(s, [])
    else
      var r1 := Observe(s, obs[0]);
      var r2 := Run(r1.state, obs[1..]);
      Observed(r2.state, r1.sent + r2.sent)
  }

  /** Running over two stretches of lines is running over the first, then
      over the second from where the first left off. */
  lemma {:induction false} RunAppend(s: State, a: seq<Obs>, b: seq<Obs>)
    ensures var r1 := Run(s, a);
            var r2 := Run(r1.state, b);
            Run(s, a + b) == Observed(r2.state, r1.sent + r2.sent)
    decreases |a|
  {
    if |a| == 0 {
      assert a + b == b;
    } else {
      var o := Observe(s, a[0]);
      assert (a + b)[0] == a[0];
      assert (a + b)[1..] == a[1..] + b;
      RunAppend(o.state, a[1..], b);
      var tail := Run(o.state, a[1..]);
      var r2 := Run(tail.state, b);
      assert Run(s, a) == Observed(tail.state, o.sent + tail.sent);
      assert Run(s, a + b) == Observed(r2.state, o.sent + (tail.sent + r2.sent));
      assert o.sent + (tail.sent + r2.sent) == (o.sent + tail.sent) + r2.sent;
    }
  }

  /** Every forwarded update is one of the observed lines, at its own clock
      reading. */
  lemma {:induction false} SentAreObserved(s: State, obs: seq<Obs>)
    ensures forall k :: 0 <= k < |Run(s, obs).sent| ==> Run(s, obs).sent[k] in obs
    decreases |obs|
  {
    if |obs| > 0 {
      var r1 := Observe(s, obs[0]);
      SentAreObserved(r1.state, obs[1..]);
      assert forall x :: x in obs[1..] ==> x in obs;
    }
  }

  /** `lastSendTime` ends at the clock reading of the last forwarded update,
      and is unchanged when nothing was forwarded. */
  lemma {:induction false} LastSendIsLastUpdate(s: State, obs: seq<Obs>)
    ensures var e := Run(s, obs).sent;
            Run(s, obs).state.lastSendTime == (if |e| == 0 then s.lastSendTime else e[|e| - 1].time)
    decreases |obs|
  {
    if |obs| > 0 {
      LastSendIsLastUpdate(Observe(s, obs[0]).state, obs[1..]);
    }
  }

  /** Forwarded updates are spaced more than a window apart, the first one
      more than a window after the last-send time the run started from. */
  lemma {:induction false} RunSpacing(s: State, obs: seq<Obs>)
    ensures var e := Run(s, obs).sent;
            && (|e| > 0 ==> e[0].time - s.lastSendTime > Window)
            && (forall k :: 0 < k < |e| ==> e[k].time - e[k - 1].time > Window)
    decreases |obs|
  {
    if |obs| > 0 {
      var r1 := Observe(s, obs[0]);
      RunSpacing(r1.state, obs[1..]);
      var e2 := Run(r1.state, obs[1..]).sent;
      var e := r1.sent + e2;
      if r1.sent != [] {
        assert forall k :: 0 < k < |e| ==> e[k] == e2[k - 1];
      }
    }
  }

  /** At most one update per window: however many lines arrive within one
      500 ms span starting at `t0`, at most one of them is forwarded. */
  lemma {:induction false} AtMostOnePerWindow(s: State, obs: seq<Obs>, t0: int)
    requires forall k :: 0 <= k < |obs| ==> t0 <= obs[k].time <= t0 + Window
    ensures |Run(s, obs).sent| <= 1
    decreases |obs|
  {
    if |obs| > 0 {
      var r1 := Observe(s, obs[0]);
      if r1.sent == [] {
        AtMostOnePerWindow(r1.state, obs[1..], t0);
      } else {
        QuietWithinWindow(r1.state, obs[1..], t0);
      }
    }
  }

  /** Once an update has gone out at or after `t0`, lines arriving no later
      than `t0 + 500` are all held back. */
  lemma {:induction false} QuietWithinWindow(s: State, obs: seq<Obs>, t0: int)
    requires s.lastSendTime >= t0
    requires forall k :: 0 <= k < |obs| ==> obs[k].time <= t0 + Window
    ensures Run(s, obs).sent == []
    ensures Run(s, obs).state.lastSendTime == s.lastSendTime
    decreases |obs|
  {
    if |obs| > 0 {
      QuietWithinWindow(Observe(s, obs[0]).state, obs[1..], t0);
    }
  }

  /** No trailing flush: when every line arrives within the window after the
      last update, nothing is forwarded, and the most recent line is left
      pending for good unless another line comes later. */
  lemma {:induction false} NoTrailingFlush(s: State, obs: seq<Obs>)
    requires |obs| > 0
    requires forall k :: 0 <= k < |obs| ==> obs[k].time - s.lastSendTime <= Window
    ensures Run(s, obs).sent == []
    ensures Run(s, obs).state == State(s.lastSendTime, Some(obs[|obs| - 1].line))
    decreases |obs|
  {
    var r1 := Observe(s, obs[0]);
    if |obs| > 1 {
      NoTrailingFlush(r1.state, obs[1..]);
    }
  }

  /** The pending slot holds the latest line unless that very line was just
      forwarded: after any run followed by one more line `o`, the slot is empty
      exactly when `o` went out (ending the updates), and holds `o` otherwise. */
  lemma PendingIsLatest(s: State, obs: seq<Obs>, o: Obs)
    ensures var before := Run(s, obs);
            var r := Run(s, obs + [o]);
            && (r.state.pendingInfo == None <==> o.time - before.state.lastSendTime > Window)
            && (r.state.pendingInfo == None ==> r.sent == before.sent + [o])
            && (r.state.pendingInfo != None ==> r.state.pendingInfo == Some(o.line) && r.sent == before.sent)
  {
    RunAppend(s, obs, [o]);
    var before := Run(s, obs);
    assert Run(before.state, [o]).sent == Observe(before.state, o).sent;
    assert Run(before.state, [o]).sent + [] == Run(before.state, [o]).sent;
  }
}

=== FILE: usi.dfy ===
/**
 The USI (Universal Shogi Interface) vocabulary the connector speaks: the
 commands it writes to the engine, the way configured option values are
 rendered into `setoption` commands, and the classes of engine output line it
 recognises.
 */
module Usi {
  import opened Text

  /** A configured option value: the settings file holds integers (the
      defaults) or strings. */
  datatype OptionValue = Num(n: int) | Str(s: string)

  /** One entry of the engine-option mapping, in enumeration order */
  datatype EngineOption = EngineOption(name: string, value: OptionValue)

  /** The character of a decimal digit */
  function DigitChar(d: nat): (c: char)
    requires d < 10
    ensures '0' <= c <= '9'
  {
    ('0' as int + d) as char
  }

  /** The value of a decimal digit character */
  function DigitValue(c: char): nat
    requires '0' <= c <= '9'
  {
    c as nat - '0' as nat
  }

  /** A string made only of decimal digits */
  predicate IsDigits(r: string) {
    forall k :: 0 <= k < |r| ==> '0' <= r[k] <= '9'
  }

  /** The number a string of decimal digits denotes, most significant first */
  function DigitsValue(r: string): nat
    requires IsDigits(r)
    decreases |r|
  {
    if |r| == 0 then 0 else DigitsValue(r[..|r| - 1]) * 10 + DigitValue(r[|r| - 1])
  }

  /** `r` is the canonical decimal numeral of `n`: at least one digit, only
      digits, denoting `n`, and no leading zero unless `n` is written `0` */
  predicate Numeral(r: string, n: nat) {
    && |r| >= 1
    && IsDigits(r)
    && DigitsValue(r) == n
    && (|r| > 1 ==> r[0] != '0')
  }

  /** The decimal numeral of `n`, most significant digit first */
  function Decimal(n: nat): (r: string)
    ensures Numeral(r, n)
    ensures n < 10 ==> |r| == 1
    decreases n
  {
    if n < 10 then
      var r := [DigitChar(n)];
      assert r[..0] == [];
      assert DigitsValue(r) == DigitValue(r[0]);
      r
    else
      var p := Decimal(n / 10);
      var r := p + [DigitChar(n % 10)];
      assert r[..|r| - 1] == p;
      assert IsDigits(r);
      assert DigitsValue(r) == DigitsValue(p) * 10 + n % 10;
      assert r[0] == p[0];
      r
  }

  /** What a template literal `${v}` produces for the value: a string as it
      is, a non-negative integer as its numeral, a negative one as `-` followed
      by the numeral of its magnitude */
  function Render(v: OptionValue): (r: string)
    ensures v.Str? ==> r == v.s
    ensures v.Num? && v.n >= 0 ==> Numeral(r, v.n)
    ensures v.Num? && v.n < 0 ==> |r| >= 2 && r[0] == '-' && Numeral(r[1..], -v.n)
  {
    match v
    case Num(n) =>
      if n < 0 then
        var d := Decimal(-n);
        assert ("-" + d)[1..] == d;
        "-" + d
      else Decimal(n)
    case Str(s) => s
  }

  function SetOption(o: EngineOption): string {
    "setoption name " + o.name + " value " + Render(o.value)
  }

  /** One `setoption` command per option, in the options' order */
  function OptionCommands(opts: seq<EngineOption>): (r: seq<string>)
    ensures |r| == |opts|
    ensures forall k :: 0 <= k < |opts| ==> r[k] == SetOption(opts[k])
    decreases |opts|
  {
    if |opts| == 0 then [] else [SetOption(opts[0])] + OptionCommands(opts[1..])
  }

  /** The stop / position / go triple that starts a new analysis */
  function AnalysisCommands(sfen: string): seq<string> {
    ["stop", "position sfen " + sfen, "go infinite"]
  }

  /** The bytes written to the engine's standard input for the commands:
      each command followed by a line feed. */
  function Wire(cmds: seq<string>): (w: seq<string>)
    ensures |w| == |cmds|
    ensures forall k :: 0 <= k < |cmds| ==> w[k] == cmds[k] + "\n"
    decreases |cmds|
  {
    if |cmds| == 0 then [] else [cmds[0] + "\n"] + Wire(cmds[1..])
  }

  lemma {:induction false} WireAppend(a: seq<string>, b: seq<string>)
    ensures Wire(a + b) == Wire(a) + Wire(b)
    decreases |a|
  {
    if |a| == 0 {
      assert a + b == b;
    } else {
      assert (a + b)[1..] == a[1..] + b;
      WireAppend(a[1..], b);
    }
  }

  lemma WireOne(c: string)
    ensures Wire([c]) == [c + "\n"]
  {
    assert Wire([c])[0] == c + "\n";
  }

  /** One command before and one after a block: each gets its own line feed */
  lemma WireAround(first: string, mid: seq<string>, last: string)
    ensures Wire([first] + mid + [last]) == [first + "\n"] + Wire(mid) + [last + "\n"]
  {
    WireAppend([first] + mid, [last]);
    WireAppend([first], mid);
    WireOne(first);
    WireOne(last);
  }

  /** The analysis triple on the wire */
  lemma WireAnalysis(sfen: string)
    ensures Wire(AnalysisCommands(sfen)) == ["stop\n", "position sfen " + sfen + "\n", "go infinite\n"]
  {
    var w := Wire(AnalysisCommands(sfen));
    assert w[0] == "stop\n" && w[1] == "position sfen " + sfen + "\n" && w[2] == "go infinite\n";
  }

  /** A trimmed engine line that carries an evaluation: it starts with `info`
      and contains `score` anywhere (plain substring tests, case-sensitive). */
  predicate IsInfoLine(t: string) {
    StartsWith(t, "info") && Contains(t, "score")
  }

  datatype LineKind = UsiOk | ReadyOk | Info | Other

  /** How the adapter treats an engine output line once trimmed. The order of
      the tests does not matter for evaluation lines: neither acknowledgement
      is one. */
  function Classify(t: string): (r: LineKind)
    ensures r == UsiOk <==> t == "usiok"
    ensures r == ReadyOk <==> t == "readyok"
    ensures r == Info <==> IsInfoLine(t)
  {
    AcknowledgementsFailInfoTest();
    if t == "usiok" then UsiOk
    else if t == "readyok" then ReadyOk
    else if IsInfoLine(t) then Info
    else Other
  }

  /** The trimmed evaluation lines among `lines`, in order */
  function InfoSegments(lines: seq<string>): (r: seq<string>)
    ensures forall k :: 0 <= k < |r| ==> IsInfoLine(r[k])
    ensures |r| <= |lines|
  {
    if |lines| == 0 then []
    else if IsInfoLine(Trim(lines[0])) then [Trim(lines[0])] + InfoSegments(lines[1..])
    else InfoSegments(lines[1..])
  }

  lemma {:induction false} InfoSegmentsAppend(a: seq<string>, b: seq<string>)
    ensures InfoSegments(a + b) == InfoSegments(a) + InfoSegments(b)
    decreases |a|
  {
    if |a| == 0 {
      assert a + b == b;
    } else {
      assert (a + b)[1..] == a[1..] + b;
      InfoSegmentsAppend(a[1..], b);
    }
  }

  /** The two handshake acknowledgements are never evaluation lines */
  lemma AcknowledgementsAreNotInfo()
    ensures !IsInfoLine("usiok") && !IsInfoLine("readyok")
    ensures Classify("usiok") == UsiOk && Classify("readyok") == ReadyOk
  {
    AcknowledgementsFailInfoTest();
  }

  lemma AcknowledgementsFailInfoTest()
    ensures !IsInfoLine("usiok") && !IsInfoLine("readyok")
  {
    assert "usiok"[..4][0] != "info"[0];
    assert "readyok"[..4][0] != "info"[0];
  }

  /** The acknowledgement words are already trimmed */
  lemma AcknowledgementsTrimmed()
    ensures Trim("usiok") == "usiok" && Trim("readyok") == "readyok"
  {
    TrimUnpadded("usiok");
    TrimUnpadded("readyok");
  }
}

=== FILE: usi_handler.dfy ===
/**
 The `UsiHandler` class: one engine subprocess, seen only as present or
 absent, plus the handler's fields. Every operation is a pure transition that
 returns the new handler, the text written to the engine's standard input and
 the evaluation updates handed to the `onInfoUpdate` callback.
 */
module UsiHandler {
  import opened Wrappers
  import opened Text
  import opened Usi
  import LineAssembler
  import Throttle

  /** The part of the settings the handler reads */
  datatype Config = Config(enginePath: string, engineOptions: seq<EngineOption>)

  /** `engineProcess !== null`, `isReady`, `buffer`, and the throttle fields
      `lastSendTime` / `pendingInfo` */
  datatype Handler = Handler(hasProcess: bool, isReady: bool, buffer: string, throttle: Throttle.State)

  /** What the constructor leaves */
  const Fresh := Handler(false, false, "", Throttle.Initial)

  /** A transition's result: the new handler, the text written to the engine
      (one element per `stdin.write`) and the updates forwarded */
  datatype Step = Step(h: Handler, writes: seq<string>, updates: seq<string>)

  /** `start()`'s boolean result together with the transition */
  datatype Started = Started(ok: bool, step: Step)

  /** The lines of the forwarded updates, as handed to `onInfoUpdate` */
  function Payloads(sent: seq<Throttle.Obs>): (p: seq<string>)
    ensures |p| == |sent|
    ensures forall k :: 0 <= k < |sent| ==> p[k] == sent[k].line
    decreases |sent|
  {
    if |sent| == 0 then [] else [sent[0].line] + Payloads(sent[1..])
  }

  lemma {:induction false} PayloadsAppend(a: seq<Throttle.Obs>, b: seq<Throttle.Obs>)
    ensures Payloads(a + b) == Payloads(a) + Payloads(b)
    decreases |a|
  {
    if |a| == 0 {
      assert a + b == b;
    } else {
      assert (a + b)[1..] == a[1..] + b;
      PayloadsAppend(a[1..], b);
    }
  }

  /** `sendCommand` for each command in turn: each command and its line feed
      is written when a process exists, nothing is written otherwise. */
  function SendCommands(h: Handler, cmds: seq<string>): (w: seq<string>)
    ensures !h.hasProcess ==> w == []
    ensures h.hasProcess ==> |w| == |cmds| && forall k :: 0 <= k < |cmds| ==> w[k] == cmds[k] + "\n"
  {
    if h.hasProcess then Wire(cmds) else []
  }

  /** `start()`: the resolved path is looked up with the `fileExists` oracle. A
      missing engine gives `false` and changes nothing; otherwise a process is
      owned and `usi` is written. An existing process is not stopped first, and
      the buffer, readiness and throttle fields are left as they were. */
  function Start(h: Handler, cfg: Config, resolve: string -> string, fileExists: string -> bool): (r: Started)
    ensures r.ok <==> fileExists(resolve(cfg.enginePath))
    ensures !r.ok ==> r.step == Step(h, [], [])
    ensures r.ok ==> r.step.writes == ["usi\n"] && r.step.updates == []
    ensures r.ok ==> r.step.h == h.(hasProcess := true)
  {
    var path := resolve(cfg.enginePath);
    if !fileExists(path) then Started(false, Step(h, [], []))
    else
      var h1 := h.(hasProcess := true);
      var w := SendCommands(h1, ["usi"]);
      assert w[0] == "usi\n";
      Started(true, Step(h1, w, []))
  }

  /** `stop()`: with a process, `quit` is written before the process is
      dropped and readiness cleared; without one nothing happens. The buffer and
      throttle fields are not reset. */
  function Stop(h: Handler): (r: Step)
    ensures (!r.h.hasProcess && !r.h.isReady) || r.h == h
    ensures r.updates == []
    ensures h.hasProcess ==> r.writes == ["quit\n"] && !r.h.hasProcess && !r.h.isReady
    ensures h.hasProcess ==> r.h.buffer == h.buffer && r.h.throttle == h.throttle
    ensures !h.hasProcess ==> r == Step(h, [], [])
  {
    if h.hasProcess then
      var w := SendCommands(h, ["quit"]);
      assert w[0] == "quit\n";
      Step(h.(hasProcess := false, isReady := false), w, [])
    else Step(h, [], [])
  }

  /** `go(sfen)`: ignored until ready; when ready, `stop`, `position sfen X` and
      `go infinite` are sent, in that order. The handler itself is unchanged. */
  function Go(h: Handler, sfen: string): (r: Step)
    ensures r.h == h && r.updates == []
    ensures !h.isReady ==> r.writes == []
    ensures h.isReady && h.hasProcess ==> r.writes == ["stop\n", "position sfen " + sfen + "\n", "go infinite\n"]
  {
    if !h.isReady then Step(h, [], [])
    else
      var w := SendCommands(h, AnalysisCommands(sfen));
      assert h.hasProcess ==> w[0] == "stop\n" && w[1] == "position sfen " + sfen + "\n" && w[2] == "go infinite\n";
      Step(h, w, [])
  }

  /** The writes that answer `usiok`: one `setoption` per option in order,
      then `isready` */
  function HandshakeWrites(h: Handler, opts: seq<EngineOption>): (w: seq<string>)
    ensures !h.hasProcess ==> w == []
    ensures h.hasProcess ==> && |w| == |opts| + 1
                             && (forall k :: 0 <= k < |opts| ==> w[k] == SetOption(opts[k]) + "\n")
                             && w[|opts|] == "isready\n"
  {
    var cmds := OptionCommands(opts) + ["isready"];
    assert forall k :: 0 <= k < |opts| ==> cmds[k] == SetOption(opts[k]);
    assert cmds[|opts|] == "isready";
    SendCommands(h, cmds)
  }

  /** The body of the `for (const line of lines)` loop for one line. Only a
      line trimming to `usiok` writes anything or changes readiness, and only an
      evaluation line reaches the throttle. */
  function DispatchLine(h: Handler, opts: seq<EngineOption>, line: string, now: int): (r: Step)
    ensures r.h.hasProcess == h.hasProcess && r.h.buffer == h.buffer
    ensures r.h.isReady <==> h.isReady || Trim(line) == "usiok"
    ensures Trim(line) != "usiok" ==> r.writes == []
    ensures !IsInfoLine(Trim(line)) ==> r.h.throttle == h.throttle && r.updates == []
  {
    var t := Trim(line);
    match Classify(t)
    case UsiOk =>
      var h1 := h.(isReady := true);
      Step(h1, HandshakeWrites(h1, opts), [])
    case ReadyOk => Step(h, [], [])
    case Info =>
      var o := Throttle.Observe(h.throttle, Throttle.Obs(now, t));
      Step(h.(throttle := o.state), [], Payloads(o.sent))
    case Other => Step(h, [], [])
  }

  /** The answer to `usiok`: the handler becomes ready and, when a process
      exists, exactly one `setoption name K value V` per option is written, in
      the options' order, followed by `isready`; the throttle is untouched. */
  lemma UsiOkAnswer(h: Handler, opts: seq<EngineOption>, line: string, now: int)
    requires Trim(line) == "usiok"
    ensures var r := DispatchLine(h, opts, line, now);
            && r.h == h.(isReady := true) && r.updates == []
            && (h.hasProcess ==>
                  && |r.writes| == |opts| + 1
                  && (forall k :: 0 <= k < |opts| ==> r.writes[k] == SetOption(opts[k]) + "\n")
                  && r.writes[|opts|] == "isready\n")
            && (!h.hasProcess ==> r.writes == [])
  {
  }

  /** An evaluation line is handed to `parseInfo` trimmed, at the clock
      reading `now`, and nothing is written. */
  lemma InfoToThrottle(h: Handler, opts: seq<EngineOption>, line: string, now: int)
    requires IsInfoLine(Trim(line))
    ensures var r := DispatchLine(h, opts, line, now);
            var o := Throttle.Observe(h.throttle, Throttle.Obs(now, Trim(line)));
            r.h == h.(throttle := o.state) && r.writes == [] && r.updates == Payloads(o.sent)
  {
    AcknowledgementsAreNotInfo();
  }

  /** `readyok` and every unrecognised line change nothing and send nothing */
  lemma OtherLinesIgnored(h: Handler, opts: seq<EngineOption>, line: string, now: int)
    requires Trim(line) != "usiok" && !IsInfoLine(Trim(line))
    ensures DispatchLine(h, opts, line, now) == Step(h, [], [])
  {
  }

  /** The loop over the released lines, in order */
  function DispatchLines(h: Handler, opts: seq<EngineOption>, lines: seq<string>, now: int): Step
    decreases |lines|
  {
    if |lines| == 0 then Step(h, [], [])
    else
      var s1 := DispatchLine(h, opts, lines[0], now);
      var s2 := DispatchLines(s1.h, opts, lines[1..], now);
      Step(s2.h, s1.writes + s2.writes, s1.updates + s2.updates)
  }

  /** Each of `lines` stamped with the clock reading `now` */
  function Stamp(lines: seq<string>, now: int): seq<Throttle.Obs>
    decreases |lines|
  {
    if |lines| == 0 then [] else [Throttle.Obs(now, lines[0])] + Stamp(lines[1..], now)
  }

  /** The throttle sees exactly the trimmed evaluation lines, in order: the
      updates and the final throttle state of the loop are those of the
      throttle run over them; all other lines leave it alone. */
  lemma {:induction false} DispatchThrottles(h: Handler, opts: seq<EngineOption>, lines: seq<string>, now: int)
    ensures var s := DispatchLines(h, opts, lines, now);
            var run := Throttle.Run(h.throttle, Stamp(InfoSegments(lines), now));
            s.h.throttle == run.state && s.updates == Payloads(run.sent)
    decreases |lines|
  {
    if |lines| > 0 {
      var s1 := DispatchLine(h, opts, lines[0], now);
      DispatchThrottles(s1.h, opts, lines[1..], now);
      var t := Trim(lines[0]);
      var rest := Throttle.Run(s1.h.throttle, Stamp(InfoSegments(lines[1..]), now));
      AcknowledgementsAreNotInfo();
      if IsInfoLine(t) {
        var o := Throttle.Observe(h.throttle, Throttle.Obs(now, t));
        assert Stamp(InfoSegments(lines), now) == [Throttle.Obs(now, t)] + Stamp(InfoSegments(lines[1..]), now);
        PayloadsAppend(o.sent, rest.sent);
      } else {
        assert s1.h.throttle == h.throttle && s1.updates == [];
      }
    }
  }

  /** Lines dispatched from the two halves of a line list, in order, do what
      the whole list does. */
  lemma DispatchLinesAppend(h: Handler, opts: seq<EngineOption>, a: seq<string>, b: seq<string>, now: int)
    ensures var s1 := DispatchLines(h, opts, a, now);
            var s2 := DispatchLines(s1.h, opts, b, now);
            DispatchLines(h, opts, a + b, now) == Step(s2.h, s1.writes + s2.writes, s1.updates + s2.updates)
  {
    AppendHandler(h, opts, a, b, now);
    AppendWrites(h, opts, a, b, now);
    AppendUpdates(h, opts, a, b, now);
  }

  lemma {:induction false} AppendHandler(h: Handler, opts: seq<EngineOption>, a: seq<string>, b: seq<string>, now: int)
    ensures DispatchLines(h, opts, a + b, now).h == DispatchLines(DispatchLines(h, opts, a, now).h, opts, b, now).h
    decreases |a|
  {
    if |a| == 0 {
      assert a + b == b;
    } else {
      var s1 := DispatchLine(h, opts, a[0], now);
      assert (a + b)[0] == a[0];
      assert (a + b)[1..] == a[1..] + b;
      AppendHandler(s1.h, opts, a[1..], b, now);
    }
  }

  lemma {:induction false} AppendWrites(h: Handler, opts: seq<EngineOption>, a: seq<string>, b: seq<string>, now: int)
    ensures DispatchLines(h, opts, a + b, now).writes
         == DispatchLines(h, opts, a, now).writes + DispatchLines(DispatchLines(h, opts, a, now).h, opts, b, now).writes
    decreases |a|
  {
    if |a| == 0 {
      assert a + b == b;
    } else {
      var s1 := DispatchLine(h, opts, a[0], now);
      assert (a + b)[0] == a[0];
      assert (a + b)[1..] == a[1..] + b;
      AppendWrites(s1.h, opts, a[1..], b, now);
      AppendHandler(s1.h, opts, a[1..], b, now);
    }
  }

  lemma {:induction false} AppendUpdates(h: Handler, opts: seq<EngineOption>, a: seq<string>, b: seq<string>, now: int)
    ensures DispatchLines(h, opts, a + b, now).updates
         == DispatchLines(h, opts, a, now).updates + DispatchLines(DispatchLines(h, opts, a, now).h, opts, b, now).updates
    decreases |a|
  {
    if |a| == 0 {
      assert a + b == b;
    } else {
      var s1 := DispatchLine(h, opts, a[0], now);
      assert (a + b)[0] == a[0];
      assert (a + b)[1..] == a[1..] + b;
      AppendUpdates(s1.h, opts, a[1..], b, now);
      AppendHandler(s1.h, opts, a[1..], b, now);
    }
  }

  /** The loop neither reads nor writes the buffer: running it from a handler
      with another buffer gives the same result with that buffer. */
  lemma {:induction false} DispatchIgnoresBuffer(h: Handler, opts: seq<EngineOption>, lines: seq<string>, now: int, b: string)
    ensures var s := DispatchLines(h, opts, lines, now);
            && s.h.buffer == h.buffer
            && s.h.hasProcess == h.hasProcess
            && DispatchLines(h.(buffer := b), opts, lines, now) == Step(s.h.(buffer := b), s.writes, s.updates)
    decreases |lines|
  {
    if |lines| > 0 {
      var s1 := DispatchLine(h, opts, lines[0], now);
      assert DispatchLine(h.(buffer := b), opts, lines[0], now) == Step(s1.h.(buffer := b), s1.writes, s1.updates);
      DispatchIgnoresBuffer(s1.h, opts, lines[1..], now, b);
    }
  }

  /** Every line trimmed */
  function TrimAll(lines: seq<string>): seq<string>
    decreases |lines|
  {
    if |lines| == 0 then [] else [Trim(lines[0])] + TrimAll(lines[1..])
  }

  /** Readiness comes only from `usiok`: after the loop the handler is ready
      exactly when it was before or one of the lines trims to `usiok`
      (`readyok` does not count). */
  lemma {:induction false} ReadyIffUsiOk(h: Handler, opts: seq<EngineOption>, lines: seq<string>, now: int)
    ensures DispatchLines(h, opts, lines, now).h.isReady <==> h.isReady || "usiok" in TrimAll(lines)
    decreases |lines|
  {
    if |lines| > 0 {
      ReadyIffUsiOk(DispatchLine(h, opts, lines[0], now).h, opts, lines[1..], now);
    }
  }

  /** `handleOutput(chunk)` at clock reading `now`: the chunk goes through the
      line assembler, the buffer is replaced by the carry-over, and each
      complete line is dispatched in order. Every line of the chunk is handled
      at the one reading `now`, so at most one update leaves per chunk; the
      source reads the clock afresh for each evaluation line. */
  function HandleOutput(h: Handler, cfg: Config, chunk: string, now: int): (r: Step)
    ensures NoNewline(r.h.buffer) && r.h.hasProcess == h.hasProcess
    ensures Terminated(LineAssembler.Feed(h.buffer, chunk).lines) + r.h.buffer == h.buffer + chunk
    ensures |r.updates| <= 1
    ensures forall k :: 0 <= k < |r.updates| ==> IsInfoLine(r.updates[k])
  {
    var f := LineAssembler.Feed(h.buffer, chunk);
    var r := DispatchLines(h.(buffer := f.rest), cfg.engineOptions, f.lines, now);
    DispatchIgnoresBuffer(h.(buffer := f.rest), cfg.engineOptions, f.lines, now, f.rest);
    UpdatesFromOneChunk(h.(buffer := f.rest), cfg.engineOptions, f.lines, now);
    r
  }

  /** Lines handled at one clock reading produce at most one update, and only
      evaluation lines are forwarded. */
  lemma UpdatesFromOneChunk(h: Handler, opts: seq<EngineOption>, lines: seq<string>, now: int)
    ensures var u := DispatchLines(h, opts, lines, now).updates;
            |u| <= 1 && forall k :: 0 <= k < |u| ==> IsInfoLine(u[k])
  {
    DispatchThrottles(h, opts, lines, now);
    var obs := Stamp(InfoSegments(lines), now);
    StampedInfo(InfoSegments(lines), now);
    Throttle.AtMostOnePerWindow(h.throttle, obs, now);
    Throttle.SentAreObserved(h.throttle, obs);
  }

  /** Stamped evaluation lines all carry the one clock reading and an
      evaluation line */
  lemma StampedInfo(lines: seq<string>, now: int)
    requires forall k :: 0 <= k < |lines| ==> IsInfoLine(lines[k])
    ensures forall o :: o in Stamp(lines, now) ==> o.time == now && IsInfoLine(o.line)
    ensures forall k :: 0 <= k < |Stamp(lines, now)| ==> now <= Stamp(lines, now)[k].time <= now + Throttle.Window
  {
    StampTimes(lines, now);
  }

  lemma {:induction false} StampTimes(lines: seq<string>, now: int)
    ensures |Stamp(lines, now)| == |lines|
    ensures forall k :: 0 <= k < |lines| ==> Stamp(lines, now)[k] == Throttle.Obs(now, lines[k])
    decreases |lines|
  {
    if |lines| > 0 {
      StampTimes(lines[1..], now);
    }
  }

  /** Chunk boundaries do not matter to the handler: two `data` events at the
      same clock reading leave the handler, the writes and the updates exactly
      as one event carrying both chunks would. */
  lemma HandleOutputSplitChunk(h: Handler, cfg: Config, c1: string, c2: string, now: int)
    ensures var s1 := HandleOutput(h, cfg, c1, now);
            var s2 := HandleOutput(s1.h, cfg, c2, now);
            HandleOutput(h, cfg, c1 + c2, now) == Step(s2.h, s1.writes + s2.writes, s1.updates + s2.updates)
  {
    var opts := cfg.engineOptions;
    var f1 := LineAssembler.Feed(h.buffer, c1);
    var f2 := LineAssembler.Feed(f1.rest, c2);
    LineAssembler.FeedSplitChunk(h.buffer, c1, c2);
    var d1 := DispatchLines(h.(buffer := f1.rest), opts, f1.lines, now);
    DispatchIgnoresBuffer(h.(buffer := f1.rest), opts, f1.lines, now, f2.rest);
    assert h.(buffer := f1.rest).(buffer := f2.rest) == h.(buffer := f2.rest);
    DispatchIgnoresBuffer(d1.h, opts, f2.lines, now, f2.rest);
    DispatchLinesAppend(h.(buffer := f2.rest), opts, f1.lines, f2.lines, now);
  }

  /** The handler run over a sequence of `data` events at one clock reading */
  function HandleAll(h: Handler, cfg: Config, chunks: seq<string>, now: int): Step
    decreases |chunks|
  {
    if |chunks| == 0 then Step(h, [], [])
    else
      var s1 := HandleOutput(h, cfg, chunks[0], now);
      var s2 := HandleAll(s1.h, cfg, chunks[1..], now);
      Step(s2.h, s1.writes + s2.writes, s1.updates + s2.updates)
  }

  /** Any chunking of the engine's output, delivered at one clock reading,
      has the effect of the concatenated text delivered at once. */
  lemma {:induction false} HandleAllIsHandleOfConcat(h: Handler, cfg: Config, chunks: seq<string>, now: int)
    requires NoNewline(h.buffer)
    ensures HandleAll(h, cfg, chunks, now) == HandleOutput(h, cfg, LineAssembler.Concat(chunks), now)
    decreases |chunks|
  {
    if |chunks| == 0 {
      LineAssembler.NoLineWithoutTerminator(h.buffer, "");
      assert h.buffer + "" == h.buffer;
      assert h.(buffer := h.buffer) == h;
    } else {
      var s1 := HandleOutput(h, cfg, chunks[0], now);
      HandleAllIsHandleOfConcat(s1.h, cfg, chunks[1..], now);
      HandleOutputSplitChunk(h, cfg, chunks[0], LineAssembler.Concat(chunks[1..]), now);
    }
  }

  /** The handshake: a complete line that trims to `usiok` (surrounding
      whitespace, such as the carriage return of a CRLF engine, is ignored)
      makes the handler ready and answers with one `setoption` per option, in
      order, then `isready`; nothing is forwarded. */
  lemma HandshakeOnUsiOk(h: Handler, cfg: Config, line: string, now: int)
    requires h.hasProcess && h.buffer == ""
    requires NoNewline(line) && Trim(line) == "usiok"
    ensures var r := HandleOutput(h, cfg, line + "\n", now);
            && r.h == h.(isReady := true)
            && r.writes == Wire(OptionCommands(cfg.engineOptions) + ["isready"])
            && r.updates == []
  {
    AssembleOneLine(line);
    UsiOkAnswer(h, cfg.engineOptions, line, now);
    var s1 := DispatchLine(h, cfg.engineOptions, line, now);
    assert DispatchLines(h, cfg.engineOptions, [line], now) == Step(s1.h, s1.writes + [], s1.updates + []);
  }

  /** A complete line that trims to `readyok` is acknowledged by doing
      nothing at all: readiness was already set by `usiok`. */
  lemma ReadyOkIsNoOp(h: Handler, cfg: Config, line: string, now: int)
    requires h.buffer == ""
    requires NoNewline(line) && Trim(line) == "readyok"
    ensures HandleOutput(h, cfg, line + "\n", now) == Step(h, [], [])
  {
    AssembleOneLine(line);
    AcknowledgementsAreNotInfo();
    OtherLinesIgnored(h, cfg.engineOptions, line, now);
    assert DispatchLines(h, cfg.engineOptions, [line], now) == Step(h, [], []);
  }

  /** One complete line arriving on an empty buffer is released alone */
  lemma AssembleOneLine(line: string)
    requires NoNewline(line)
    ensures LineAssembler.Feed("", line + "\n") == LineAssembler.Fed([line], "")
  {
    assert Terminated([line]) + "" == "" + (line + "\n");
    LineAssembler.FeedUnique("", line + "\n", [line], "");
  }

  /** A whole session: after a successful start and the handshake line,
      `go` sends its triple; the engine saw `usi`, the options, `isready`,
      then `stop` / `position sfen X` / `go infinite` in exactly that order.
      The same `go` issued before the handshake is dropped. */
  lemma StartHandshakeGo(cfg: Config, resolve: string -> string, fileExists: string -> bool,
                         usiok: string, sfen: string, now: int)
    requires fileExists(resolve(cfg.enginePath))
    requires NoNewline(usiok) && Trim(usiok) == "usiok"
    ensures var st := Start(Fresh, cfg, resolve, fileExists).step;
            var hs := HandleOutput(st.h, cfg, usiok + "\n", now);
            var g := Go(hs.h, sfen);
            && Go(st.h, sfen).writes == []
            && st.writes + hs.writes + g.writes
               == Wire(["usi"] + OptionCommands(cfg.engineOptions) + ["isready"] + AnalysisCommands(sfen))
  {
    var st := Start(Fresh, cfg, resolve, fileExists).step;
    HandshakeOnUsiOk(st.h, cfg, usiok, now);
    var opts := OptionCommands(cfg.engineOptions);
    WireAppend(["usi"], opts + ["isready"]);
    WireAppend(["usi"] + opts + ["isready"], AnalysisCommands(sfen));
    assert ["usi"] + opts + ["isready"] == ["usi"] + (opts + ["isready"]);
    assert Wire(["usi"]) == ["usi\n"];
    WireAnalysis(sfen);
  }

  /** `sendCommand` guards every write: a handler without a process writes
      nothing, whatever the engine output, `go` or `stop` it is given. */
  lemma NoProcessNoWrites(h: Handler, cfg: Config, chunk: string, now: int, sfen: string)
    requires !h.hasProcess
    ensures HandleOutput(h, cfg, chunk, now).writes == []
    ensures Go(h, sfen).writes == [] && Stop(h).writes == []
  {
    var f := LineAssembler.Feed(h.buffer, chunk);
    NoProcessLinesNoWrites(h.(buffer := f.rest), cfg.engineOptions, f.lines, now);
  }

  lemma {:induction false} NoProcessLinesNoWrites(h: Handler, opts: seq<EngineOption>, lines: seq<string>, now: int)
    requires !h.hasProcess
    ensures DispatchLines(h, opts, lines, now).writes == []
    decreases |lines|
  {
    if |lines| > 0 {
      NoProcessLinesNoWrites(DispatchLine(h, opts, lines[0], now).h, opts, lines[1..], now);
    }
  }

  /** Once stopped, the handler writes nothing more: `go` is dropped and a
      second `stop` is a no-op. */
  lemma StopSilences(h: Handler, sfen: string)
    ensures var s := Stop(h);
            h.hasProcess ==> Go(s.h, sfen).writes == [] && Stop(s.h) == Step(s.h, [], [])
  {
  }
}

=== FILE: wrappers.dfy ===
/** The absent-or-present value used for JavaScript's `null`/`undefined` fields. */
module Wrappers {

  datatype Option<+T> = None | Some(value: T)
}
